=== FILE: README.md ===
# Wikia-Edit-API in Dafny

A model of the core of Wikia-Edit-API, a small Node.js client that updates
pages on a MediaWiki 1.19 wiki (Wikia/Fandom) through the Action API. The
model covers two files:

- `utils.js`:
  - `toPrimitive`;
  - the query-string builder `buildQS`, with `encodeURIComponent`;
  - the cookie codec: `buildCookieHeader` renders the session's cookie map
    as a `Cookie` header, and `readCookieHeader` writes `Set-Cookie` lines
    into it.
- `wikia-api.js`:
  - the request helper `reqJSON`;
  - the two-step legacy login (`postLogin`, `postLoginConfirmToken`);
  - the batched edit-token query (`getEditInfo`);
  - the per-page edit decision (`updatePage`);
  - the sequential run `execUpdate`.

Modules:

- `Wrappers`: `Option` and `Result`.
- `Text`: the JavaScript string operations the code uses:
  - `join`, `split`, `split(c, 1)[0]`, `indexOf` and `slice`;
  - `trim`, with ECMAScript's white-space set.
- `JsValues`: JavaScript values, truthiness and `String(v)`.
- `UriComponent`: `encodeURIComponent`, as UTF-8 bytes followed by `%XX`
  escapes. It comes with a decoder, and the round trip is proved.
- `Utils`: `utils.js`. A JavaScript `Map` is a sequence of `(name, value)`
  entries in insertion order. `Map.set` keeps a key's position and
  appends a new key.
- `CookieProofs`: properties of the cookie codec:
  - the value that ends up under each name;
  - which names can appear;
  - reading is idempotent;
  - white-list filtering;
  - the round trip with `buildCookieHeader`.
- `WikiaApi`: `wikia-api.js`.
  - Every HTTP exchange is abstract. A function builds the request
    record the code would send, and the server's answer is a `Reply`.
  - A run consumes a script of replies, one per request.
  - `NoReply` is a request that fails with a socket `'error'`. A script
    that has run out answers every further request that way.
  - Each function that keeps the code as written has a corrected
    partner; the run uses the corrected one (see "## Findings").
- `WikiaProofs`: properties of the login state machine, the token query,
  the edit decision and the run.

Behaviour of the code worth knowing:

- The first login step fails with `InvalidResponse` only when
  `login.token` is missing or falsy (`wikia-api.js:106`). A missing
  `result` falls through to `LoginFailed` (`FirstStepInvalid`,
  `FirstStepLoginFailed`).
- A page is skipped when its text is falsy (`wikia-api.js:152`). That
  includes `0` and `false`, not only empty or absent text.
- The edit token is not checked before an edit. A page without one sends
  `token=undefined` (`wikia-api.js:159`).
- A `Set-Cookie` line is first cut at its first `;` and trimmed
  (`utils.js:63`). When that trimmed segment has no `=`, the value is the
  whole segment and the name is the segment minus its last character
  (`utils.js:64-65`). `foo; Secure` is stored as `fo -> foo`.
- `readCookieHeader` returns `''` without touching the map when the header
  is absent (`utils.js:59`). This is `ReadCookieHeader` and `JarAfterRead`.
- `buildCookieHeader` renders one string, not lines. The codec round trip
  is proved both ways:
  - one `Set-Cookie` line per entry (`CookieLinesRoundTrip`);
  - the `Cookie` header split on `;`, since the reader's `trim` removes
    the space after each `;` (`CookieHeaderRoundTrip`).
- The confirm step does not look at `login.result`, only at
  `login.lgtoken` (`wikia-api.js:83`).

## Model

| member | source | states |
|---|---|---|
| Utils.ToPrimitive | utils.js:25-30 | the result is always a string, number or boolean; such values pass through unchanged; any other value becomes the empty string |
| Utils.ToPrimitiveIdempotent | utils.js:25-30 | coercing twice is coercing once |
| UriComponent.EncodeURIComponent | utils.js:39 | an encoded component contains only unreserved characters, `%` and upper-case hex digits, so never `&`, `=`, `|` or `;` |
| UriComponent.Utf8Char | utils.js:39 | the UTF-8 encoding of a character has 1 to 4 bytes; it has one byte, equal to the code point, exactly for ASCII; longer encodings start with a lead byte of at least 0xC0 |
| UriComponent.DecodeFirstOfUtf8Char | utils.js:39 | decoding the UTF-8 bytes of a character, with anything after them, gives back that character and its byte length |
| UriComponent.Utf8RoundTrip | utils.js:39 | decoding the UTF-8 bytes of any string gives the string back |
| UriComponent.HexDigit | utils.js:39 | the escape digits are upper-case hexadecimal |
| UriComponent.EncodeByte | utils.js:39 | every character of a byte's escape is a legal component character |
| UriComponent.EncodeBytes | utils.js:39 | every character of an escaped byte string is a legal component character |
| UriComponent.PercentDecodeByte | utils.js:39 | decoding the escape of one byte ahead of more text yields that byte ahead of the text's decoding |
| UriComponent.PercentRoundTrip | utils.js:39 | percent-decoding the escapes of any byte sequence gives the bytes back |
| UriComponent.DecodeEncode | utils.js:39 | `decodeURIComponent(encodeURIComponent(s)) == s` for every string |
| UriComponent.EncodeInjective | utils.js:39 | two strings with the same encoding are equal |
| Utils.EncodePair | utils.js:39 | a `name=value` part splits on `=` into exactly the encoded name and the encoded value |
| Utils.EncodePairs | utils.js:38-40 | one part per parameter, in property order, each the encoding of that parameter |
| Utils.BuildQS | utils.js:36-42 | the query string is empty exactly when there are no parameters |
| Utils.BuildQSParts | utils.js:36-42 | splitting a non-empty query string on `&` gives the parts in order, each holding one `=` between encoded name and encoded value |
| Utils.ParsePairsOfEncoded | utils.js:38-40 | the encoded parts parse back to the parameter list |
| Utils.ParseBuildQS | utils.js:36-42 | every parameter list, including the empty one, is recovered from its query string |
| Text.SplitJoin | utils.js:41 | `parts.join(c)` is undone by `split(c)` when no part contains `c`: the parts come back, in order |
| Text.BeforeFirst | utils.js:63 | `split(';', 1)[0]` is a prefix of the line that contains no `;` and ends at the first `;` if there is one |
| Text.BeforeFirstAbsent | utils.js:63 | a line with no `;` is its own first segment |
| Text.IndexOf | utils.js:64 | `indexOf` is -1 exactly when the character is absent; otherwise it is a position holding the character, with no earlier occurrence |
| Text.TrimStart | utils.js:63 | removing leading white space leaves a suffix that does not start with white space; every removed character is white space; nothing changes when the first character is not white space |
| Text.TrimCuts | utils.js:63 | `trim` cuts a string into leading white space, a middle with no white space at either end, which it returns, and trailing white space |
| Text.SliceShapes | utils.js:65 | `slice(0, end)` is a prefix whose length is `end` clamped to the string, a negative `end` counting back from the end; `slice(start)` is the suffix from `start` on, empty past the end |
| Text.SliceSplit | utils.js:64-65 | `slice(0, k)` and `slice(k)` concatenate back to the string |
| JsValues.FalsyValues | wikia-api.js:106 | the falsy values are exactly `''`, `0`, `false`, `null` and `undefined` |
| JsValues.JsString | utils.js:39 | `String(v)` is empty only for the empty string |
| JsValues.DecimalRoundTrip | utils.js:39 | the numeral of a natural number reads back as that number and has no leading zero |
| JsValues.NumberStringRoundTrip | utils.js:39 | `String(n)` of an integer is an optional `-` and digits, and reads back as `n`; JavaScript renders integers this way below 10^21 in magnitude |
| Text.TrimEnd | utils.js:63 | removing trailing white space leaves a prefix that does not end with white space and keeps every non-space character |
| Text.TrimmedIsFixed | utils.js:63 | `trim` leaves a string without surrounding white space unchanged |
| Utils.Set | utils.js:65 | after `cookies.set(n, v)`, `n` maps to `v` and every other name keeps its value; an existing name keeps its place, a new one is appended |
| Utils.SetKeepsDistinct | utils.js:65 | `set` keeps the map's names distinct |
| CookieProofs.SetFresh | utils.js:65 | setting a name the map lacks appends the entry |
| Utils.CookieLines | utils.js:49 | one `name=value` text per entry, in map order |
| Utils.BuildCookieHeader | utils.js:48-50 | an empty map gives the empty header; otherwise the header starts with the first entry's `name=value` |
| CookieProofs.CookieHeaderSeparator | utils.js:49 | with two or more entries the header is the first entry's `name=value`, then `; `, then the header of the remaining entries |
| Utils.ReadCookieHeader | utils.js:58-70 | the result is `''` exactly when the header is absent |
| Utils.JarAfterRead | utils.js:58-70 | an absent header leaves the map untouched; otherwise the map ends as the returned one |
| CookieProofs.AcceptedSome | utils.js:62 | a line passes a white list exactly when some entry `w` of it starts the line as `w=`; with no white list every line passes |
| CookieProofs.CookiePairOfLine | utils.js:63 | the pair read from a line starts the segment before the first `;` once its leading white space is gone, and only white space follows it there; it has no `;` and no surrounding white space, and is the whole line when the line already is such a pair |
| CookieProofs.AttributesIgnored | utils.js:63-65 | a line `name=value;attributes`, with a plain name and a value free of `;` not ending in white space, reads as that name and that value whatever the attributes are |
| CookieProofs.CookieNameValue | utils.js:63-65 | when the pair has `=`, the name has no `=` and name, `=` and value join back into the pair; without `=`, the value is the whole pair and the name the pair minus its last character |
| CookieProofs.ReadLineEffect | utils.js:62-65 | an accepted line sets its own name to its own value; no other name changes; a rejected line changes nothing |
| CookieProofs.ReadLinesAppend | utils.js:61-67 | reading two batches of lines is reading the first, then the second |
| CookieProofs.ReadLinesGet | utils.js:61-67 | a name's final value is that of the last accepted line naming it, or its old value if no accepted line names it |
| CookieProofs.LastWriteNamesAccepted | utils.js:61-66 | some accepted line writes a name exactly when that name is among the names the accepted lines carry |
| CookieProofs.ReadLinesKeepsUnnamed | utils.js:61-66 | names that no accepted line mentions keep their values |
| CookieProofs.ReadLineNames | utils.js:62-65 | one line adds at most its own name, at the end, and only when accepted; names stay distinct |
| CookieProofs.ReadLinesNames | utils.js:61-67 | old names stay in place at the front; every accepted name is present; no other name appears; names stay distinct |
| CookieProofs.ReadLinesKeepsNames | utils.js:61-67 | when the map already holds every accepted name, reading changes no key and no order |
| CookieProofs.ReadLinesIdempotent | utils.js:61-67 | reading the same lines again into the result changes nothing |
| CookieProofs.ReadDoubledHeader | utils.js:61-67 | a header listing its lines twice reads like the header listing them once |
| CookieProofs.LastAcceptedLineWins | utils.js:61-67 | of several accepted lines naming a cookie, the last one sets its value |
| CookieProofs.RejectedLine | utils.js:62 | a line not starting with `w=` leaves the map unchanged under the white list `[w]` |
| CookieProofs.PlainPrefixName | utils.js:62-65 | a line starting with `w=`, for a name `w` free of `=`, `;` and leading white space, is stored under `w` |
| CookieProofs.WhiteListedName | utils.js:62-65 | a line passing a white list of such names is stored under a listed name |
| CookieProofs.ReadThroughWhiteList | utils.js:61-67 | reading through such a white list adds only listed names to the map |
| CookieProofs.AcceptedOwnLine | utils.js:62-65 | the line `name=value` passes the white list `[name]` and stores exactly `name -> value` in an empty map |
| CookieProofs.WhiteListSelects | utils.js:61-67 | through the one-name white list, the `name=value` line is kept and surrounding lines that do not start with `name=` are dropped |
| CookieProofs.WhiteListExample | utils.js:61-67 | lines `a=1`, `sessionid=42`, `other=9` through the white list `sessionid` leave exactly `sessionid -> 42` |
| CookieProofs.ParsePlainPair | utils.js:63-65 | a trimmed line without `;` reads as the text before and after its first `=` |
| CookieProofs.LeadingSpaceIgnored | utils.js:63 | one leading space changes neither the name nor the value read |
| CookieProofs.ParseCookieLine | utils.js:63-65 | `name=value` and ` name=value` both read as `name` and `value` when neither has `;` or surrounding white space and the name has no `=` |
| CookieProofs.CookieLinesRoundTrip | utils.js:48-70 | a map with renderable entries, rendered one `Set-Cookie` line per entry and read without a white list into an empty map, comes back unchanged |
| CookieProofs.CookieHeaderRoundTrip | utils.js:48-70 | the `Cookie` header of a non-empty renderable map, split on `;` and read without a white list into an empty map, gives back the map |
| WikiaApi.WikiaCookiesArePlain | wikia-api.js:34-42 | every white-listed session cookie name is free of `=`, `;` and leading white space |
| Utils.Names | wikia-api.js:130 | `Array.from(map.keys())`: one key per entry, the i-th key being the i-th entry's name, in insertion order; used for the update map's titles and the cookie jar's names |
| Utils.Get | wikia-api.js:149-151 | `map.get(key)` is absent exactly when the key is not among the map's keys; used for the update map's titles and the cookie jar |
| Utils.GetFirstEntry | wikia-api.js:151 | a present key's value is the value of the first entry holding that key |
| WikiaApi.ReqJson | wikia-api.js:44-63 | a socket error is a transport error; an unparsable body is a parse error; a parsed body is delivered as is; the jar keeps its names in place, gains only white-listed names and stays distinct |
| WikiaApi.ReqJsonAsWritten | wikia-api.js:46-47 | as written, every call fails |
| WikiaProofs.MissingImportLosesEveryReply | wikia-api.js:47 | as written, every answered request fails with a `ReferenceError` for `readCookieHeader`; with the import, every parsed reply is delivered |
| WikiaProofs.ReqJsonCookies | wikia-api.js:47 | with the import in place, a parsed reply is delivered, and each name's value in the jar is the one the reply's last white-listed line gives it, or its old value when no such line names it |
| WikiaProofs.ReqJsonStoresSessionCookie | wikia-api.js:47 | a white-listed `Set-Cookie` line lands in the session jar under its name with its value |
| WikiaApi.PostLogin | wikia-api.js:105-121 | unless it fails, the first step yields a primitive token, no `lgtoken` or `sessionid` yet, and a jar of distinct white-listed names |
| WikiaProofs.FirstStepInvalid | wikia-api.js:106 | the first step fails with `InvalidResponse` exactly when a parsed reply lacks a truthy `login.token`, whatever `result` says |
| WikiaProofs.FirstStepLoginFailed | wikia-api.js:106-108 | it fails with `LoginFailed` exactly when the token is truthy and `result` is neither `Success` nor `NeedToken` |
| WikiaProofs.FailedWithoutTokenIsInvalid | wikia-api.js:106-108 | a `Failed` result without a token is reported as an invalid reply, not as a failed login |
| WikiaProofs.SuccessNeedsNoConfirm | wikia-api.js:110-116 | on `Success` the login is one request, authenticated with the coerced token and the first reply's jar |
| WikiaApi.PostLoginConfirmToken | wikia-api.js:81-88 | on success the confirm step keeps `token`, records primitive `lgtoken` and `sessionid`, and the session jar only grows |
| WikiaProofs.ConfirmOutcome | wikia-api.js:81-87 | the confirm step fails with `InvalidResponse` exactly when a parsed reply lacks a truthy `login.lgtoken`; otherwise it yields the session's own jar with the reply's cookies written in, together with the coerced `lgtoken` and `sessionid` |
| WikiaApi.Login | wikia-api.js:91-122 | a login issues one or two requests, the first being the token-free login request |
| WikiaProofs.NeedTokenConfirmsOnce | wikia-api.js:65-120 | on `NeedToken` exactly one confirm request follows; it carries the first token as `lgtoken` and the first reply's jar as its `Cookie` header, and the confirm step continues with that jar |
| WikiaProofs.TwoStepScenario | wikia-api.js:91-122 | `NeedToken`/`T1`, then `lgtoken = T2`, `sessionid = S`, leaves the session holding `T1`, `T2` and `S` after two requests |
| WikiaProofs.OneStepScenario | wikia-api.js:115-116 | `Success` straight away authenticates after a single request |
| WikiaProofs.LoginTraceIsLogins | wikia-api.js:91-122 | every request of the login phase is an `action=login` POST without a body |
| WikiaApi.GetEditInfo | wikia-api.js:124-146 | on success the session is unchanged except for its jar, which only grows |
| WikiaApi.GetEditInfoAsWritten | wikia-api.js:142-144 | as written, the session comes back exactly as it went in |
| WikiaProofs.LoginRequestShape | wikia-api.js:91-103 | the first login request is an `action=login` POST carrying `lgname`, `lgpassword` and `format=json` in the query string, with no `lgtoken` and no `Cookie` header |
| WikiaProofs.ConfirmRequestShape | wikia-api.js:65-79 | the confirm request is an `action=login` POST carrying `lgname`, `lgpassword`, `lgtoken` as the string form of the session token and `format=json`, with the session's `Cookie` header |
| WikiaProofs.FetchIsBatched | wikia-api.js:126-140 | the token query is a GET without a body carrying `prop=info`, `intoken=edit`, `indexpageids=` and `format=json`; it names every title of the map in one `titles` parameter joined by `|`, and carries the session's `Cookie` header |
| WikiaProofs.TitlesRecoverable | wikia-api.js:130 | titles free of `|` can be read back from `titles`, in order |
| WikiaProofs.BatchedScenario | wikia-api.js:130 | titles `X` and `Y` go out as the single parameter `X|Y` |
| WikiaProofs.FetchOutcome | wikia-api.js:142-144 | the query fails with `InvalidResponse` exactly when a parsed reply has no object at `query.pages`, and otherwise yields its values in order |
| WikiaProofs.EditSessionCookies | wikia-api.js:173 | an edit whose reply reports no error writes the reply's white-listed Set-Cookie lines into the session jar: each name's value is the one the last such line gives it, or its old value; the tokens are kept, and a reply without Set-Cookie lines leaves the session as it was |
| WikiaProofs.FetchSessionCookies | wikia-api.js:142 | with the jar passed, the query keeps the session's tokens and each name's value in the session jar is the one the reply's last white-listed line gives it, or its old value |
| WikiaProofs.FetchDropsSessionCookie | wikia-api.js:142 | a `wikicitiesToken=abc` cookie on the token reply is lost as written and kept once the jar is passed |
| WikiaProofs.PlanEditDecision | wikia-api.js:149-162 | a page is skipped exactly when its title is not a key or its text is falsy; otherwise the edit form has `action=edit`, the title, the text, the page's own token, the fixed summary, `assert=bot` or `assert=user`, and `format=json` |
| WikiaProofs.SkipScenario | wikia-api.js:149-152 | with only `PageA` mapped, pages `PageA` and `PageB` give one edit, for `PageA` |
| WikiaApi.EditFailureMessage | wikia-api.js:174 | the message is the server's `info` as a string when `info` is a truthy string, number or boolean, and `Edit failed` otherwise; it is never empty |
| WikiaProofs.EditRequestShape | wikia-api.js:154-171 | an edit request is a POST with an empty query string, the form as its body and the session's `Cookie` header; it counts as an edit exactly when the form says `action=edit` |
| WikiaApi.CheckEdit | wikia-api.js:173-176 | on success the session is unchanged except for its jar, which only grows |
| WikiaProofs.CheckEditOutcome | wikia-api.js:173-176 | an edit fails exactly when the parsed reply carries an error object |
| WikiaProofs.CheckEditFails | wikia-api.js:173-176 | whether an edit fails depends on its reply alone: no reply, an unparsable body or an error object |
| WikiaProofs.EditErrorScenario | wikia-api.js:174 | `{"error":{"info":"permission denied"}}` fails the edit with the message `permission denied` |
| WikiaApi.CheckEditAsWritten | wikia-api.js:173-176 | as written, an edit can fail only through the transport or the parser |
| WikiaProofs.WrapperHidesEditError | wikia-api.js:173-174 | as written, a reply reporting an error passes as success; checking the content reports the error |
| WikiaApi.UpdatePages | wikia-api.js:182-184 | every request of the page loop is an edit; on success the session jar only grows |
| WikiaProofs.UpdatePagesFollowPlan | wikia-api.js:182-184 | the loop's edit forms are the planned edits of the pages in the order received: all of them on success, a prefix when an edit fails |
| WikiaProofs.PageLoopStopsAtFailure | wikia-api.js:182-184 | the loop sends the planned edits in order, each taking the next reply, up to and including the first one whose reply fails it, and nothing after it; edit `k` is the edit request for the session the earlier replies left; the loop fails exactly when some planned edit's reply fails it |
| WikiaProofs.EditsCarrySession | wikia-api.js:163-170 | every edit is a POST to the host with an empty query string; the first carries the Cookie header of the session's jar, and each one carries the header of a jar grown from it |
| WikiaApi.ExecUpdate | wikia-api.js:179-185 | every run starts with the login request |
| WikiaProofs.RunShape | wikia-api.js:179-185 | a run is the login requests; then, only after a successful login, the token query; then edits only; a failed login ends the run with its error, and so does a failed token query right after it is sent |
| WikiaProofs.LoginConsumes | wikia-api.js:180 | a login uses exactly one reply per request it sends |
| WikiaProofs.FailedFetchStopsRun | wikia-api.js:181 | a failed token query ends the run with its error; nothing follows the query |
| WikiaProofs.RunAfterLogin | wikia-api.js:180-184 | after a successful login, the token query and then only edit requests follow the login requests |
| WikiaProofs.RunPhasesOrdered | wikia-api.js:179-185 | login, token query and edits come in that order; there is at most one token query and never a login after the second request; every edit follows the token query |
| WikiaProofs.FailedLoginStopsRun | wikia-api.js:180 | a failed login ends the run with its error after at most two requests, all of them login requests |
| WikiaProofs.FailedLoginScenario | wikia-api.js:180 | a first reply with result `Failed` gives a run of that one request ending in `LoginFailed` |
| WikiaProofs.EditsFollowPageOrder | wikia-api.js:181-184 | once the token query succeeds, the run's edit forms are the planned edits of the pages received, in order: all of them when the run succeeds, a prefix otherwise |
| WikiaProofs.RunStopsAtFailedEdit | wikia-api.js:179-185 | once the token query succeeds, request `i` takes reply `i`; the run is the login requests, the query and then the edit requests up to and including the first whose reply fails it, each for the session the earlier replies left; the run fails exactly when one does |
| WikiaProofs.RunEditsCarrySession | wikia-api.js:179-184 | every request after the login requests and the token query is a POST to the host with an empty query string whose Cookie header is built from a jar the login jar has grown into |

## Left out

- HTTP transport (`https.request`, `url.parse`): left out because the
  network is not modelled. The request record keeps the verb, the
  query, the `Cookie` header and the form.
  - The fixed `Accept`, `User-Agent`, `Content-Type` and
    `Content-Length` headers are not modelled.
  - Socket errors are `NoReply`. The 1000 ms `setTimeout` at
    `wikia-api.js:56` has no callback and there is no `'timeout'` listener,
    so a server that never answers leaves the run waiting for ever. A
    reply script cannot express such a server, so the hang is not
    modelled.
- `JSON.parse`: left out. A body is either unparsable or a `Content`
  holding only the fields the code reads:
  - `login.result`, `token`, `lgtoken` and `sessionid`;
  - `query.pages`;
  - `error.info`.
- Numbers are integers. Fractions, `NaN`, `-0` and `Infinity` are not
  modelled, neither in truthiness nor in `String(v)`.
- JsValues.NumberStringRoundTrip: holds for every integer in the model,
  but JavaScript numbers are doubles. Integers beyond 2^53 are not exact
  there, and from 10^21 on `String(n)` uses exponent form (`1e+21`). The
  model's `String(n)` agrees with JavaScript only below 10^21 in
  magnitude, and exactly only up to 2^53.
- Objects and arrays are one `Composite` value. `String(v)` renders it as
  `[object Object]`, which is wrong for arrays.
- Strings are sequences of Unicode scalar values. `encodeURIComponent`'s
  `URIError` on a lone surrogate cannot arise.
- Parameter objects are lists in property order. JavaScript's reordering
  of integer-like keys does not arise for the fixed keys the code uses.
- `updateArticles` keys are strings. A page whose `title` is not a string
  is skipped, since `Map.has` can never find it. A page value that is a
  string, number or boolean has no `title` and is skipped the same way.
- A `null` value in `query.pages` (`{"1": null}`) is not modelled. It
  passes the object check at `wikia-api.js:143`, and `pageInfo.title` at
  `wikia-api.js:149` then throws a `TypeError` that ends the run. A
  `PageInfo` always has a `title` and an `edittoken`, so it cannot stand
  for such a page.
- Promises are modelled as `Result` values. The mutation of `authEnv` in
  place is modelled as a returned session. `execUpdate` resolving to
  `undefined` is modelled as a `Run` ending in the session.
- `module.exports` is not modelled. Neither is the `...rest` body argument
  of `reqJSON`, beyond the form it carries.
- WikiaApi.PostLogin: does not claim the stored token is truthy.
  `toPrimitive` turns a truthy object token into `''`, so no such promise
  exists.
- Utils.Get: its contract says only whether the key is present. The
  value it returns is stated by `Utils.GetFirstEntry`, a separate lemma,
  so that the cookie proofs, which use `Get` throughout, do not carry the
  extra quantifier.
- WikiaApi.CheckEdit: its contract says only that the jar grows. What
  the jar holds after the reply is stated by
  `WikiaProofs.EditSessionCookies`.
- WikiaApi.UpdatePages: its contract does not say that the loop stops at
  the first failed edit, nor which session each edit carries.
  `WikiaProofs.PageLoopStopsAtFailure` states both. It pins the edit
  requests to `EditsUntilFailure`, and `WikiaProofs.EditsCarrySession`
  gives their Cookie headers.
- WikiaProofs.UpdatePagesFollowPlan: states only that the edits sent form
  a prefix of the plan when an edit fails. `PageLoopStopsAtFailure` says
  which prefix.
- WikiaProofs.EditsFollowPageOrder: the same prefix statement for the
  whole run. `RunStopsAtFailedEdit` says which prefix.
- UriComponent.PercentDecode: is the decoder written for the round trip.
  It accepts either hex case but is not the full `decodeURIComponent`.
  For example, it does not reject `%`-escapes of reserved characters.

## Findings

| source | as written | input that shows it | evidently intended | confidence | as-written member | corrected member |
|---|---|---|---|---|---|---|
| wikia-api.js:47 | `readCookieHeader` is called, but line 30 imports only `buildQS`, `buildCookieHeader` and `toPrimitive`, so every answered request throws a `ReferenceError` before its body is read; the throw happens in the `'response'` listener, outside the promise executor, so it is an uncaught exception, which the model writes as an `Err` | any reply that arrives, e.g. a login reply `{"login":{"result":"Success","token":"T"}}` | import `readCookieHeader` so white-listed cookies reach the session jar and the body is parsed | high; not executed | WikiaApi.ReqJsonAsWritten, WikiaProofs.MissingImportLosesEveryReply | WikiaApi.ReqJson, WikiaProofs.ReqJsonCookies |
| wikia-api.js:173-174 | the edit callback receives the `{cookies, content}` object and tests its `error` member, which never exists, so a reported edit error passes as success | the edit reply `{"error":{"info":"permission denied"}}` | destructure `content`, test `content && content.error` as the login and query callbacks guard a falsy body, and reject with `EditFailed("permission denied")`; without the guard a `null` body would throw on `content.error` | high; not executed | WikiaApi.CheckEditAsWritten, WikiaProofs.WrapperHidesEditError | WikiaApi.CheckEdit, WikiaProofs.EditErrorScenario |
| wikia-api.js:142 | `reqJSON(reqOptions)` gets no jar, so cookies set by the token reply go into a fresh map that is dropped | a token reply carrying `Set-Cookie: wikicitiesToken=abc` | pass `authEnv.cookies` as `updatePage` does, so the session jar keeps the cookie | medium; not executed | WikiaApi.GetEditInfoAsWritten, WikiaProofs.FetchDropsSessionCookie | WikiaApi.GetEditInfo, WikiaProofs.FetchSessionCookies |

=== FILE: cookie_proofs.dfy ===
/** What `readCookieHeader` guarantees about the cookie map: the final
    value of every name, which names can appear, idempotence, and the round
    trip with `buildCookieHeader`. */
module CookieProofs {
  import opened Wrappers
  import opened Text
  import opened Utils

  /** Reading two batches of lines is reading the first, then the second. */
  lemma {:induction false} ReadLinesAppend(a: seq<string>, b: seq<string>, jar: Jar, wl: Option<seq<string>>)
    ensures ReadLines(a + b, jar, wl) == ReadLines(b, ReadLines(a, jar, wl), wl)
  {
    if |a| == 0 {
      assert a + b == b;
    } else {
      assert (a + b)[1..] == a[1..] + b;
      ReadLinesAppend(a[1..], b, ReadLine(a[0], jar, wl), wl);
    }
  }

  /** The value of every name after reading: the last accepted line that
      names it wins; a name no accepted line mentions keeps its old value. */
  lemma {:induction false} ReadLinesGet(lines: seq<string>, jar: Jar, wl: Option<seq<string>>, k: string)
    ensures Get(ReadLines(lines, jar, wl), k) ==
      (if LastWrite(lines, wl, k).Some? then LastWrite(lines, wl, k) else Get(jar, k))
  {
    if |lines| > 0 {
      ReadLinesGet(lines[1..], ReadLine(lines[0], jar, wl), wl, k);
    }
  }

  lemma {:induction false} AcceptedNamesCons(lines: seq<string>, wl: Option<seq<string>>)
    requires |lines| > 0
    ensures AcceptedNames(lines, wl) ==
      (if Accepted(lines[0], wl) then {CookieName(lines[0])} else {}) + AcceptedNames(lines[1..], wl)
  {
    AcceptedNamesOfCons(lines, wl);
    AcceptedNamesOfTail(lines, wl);
  }

  lemma {:induction false} AcceptedNamesOfCons(lines: seq<string>, wl: Option<seq<string>>)
    requires |lines| > 0
    ensures forall n :: n in AcceptedNames(lines, wl) ==>
      (Accepted(lines[0], wl) && n == CookieName(lines[0])) || n in AcceptedNames(lines[1..], wl)
  {
    var tail := lines[1..];
    forall n | n in AcceptedNames(lines, wl)
      ensures (Accepted(lines[0], wl) && n == CookieName(lines[0])) || n in AcceptedNames(tail, wl)
    {
      var i :| 0 <= i < |lines| && Accepted(lines[i], wl) && CookieName(lines[i]) == n;
      if i > 0 {
        assert tail[i - 1] == lines[i];
      }
    }
  }

  lemma {:induction false} AcceptedNamesOfTail(lines: seq<string>, wl: Option<seq<string>>)
    requires |lines| > 0
    ensures Accepted(lines[0], wl) ==> CookieName(lines[0]) in AcceptedNames(lines, wl)
    ensures forall n :: n in AcceptedNames(lines[1..], wl) ==> n in AcceptedNames(lines, wl)
  {
    var tail := lines[1..];
    forall n | n in AcceptedNames(tail, wl)
      ensures n in AcceptedNames(lines, wl)
    {
      var i :| 0 <= i < |tail| && Accepted(tail[i], wl) && CookieName(tail[i]) == n;
      assert lines[i + 1] == tail[i];
    }
  }

  lemma {:induction false} LastWriteNamesAccepted(lines: seq<string>, wl: Option<seq<string>>, k: string)
    ensures LastWrite(lines, wl, k).Some? <==> k in AcceptedNames(lines, wl)
  {
    if |lines| > 0 {
      AcceptedNamesCons(lines, wl);
      LastWriteNamesAccepted(lines[1..], wl, k);
    }
  }

  /** Lines that are not accepted, and names no accepted line mentions,
      leave the map's values alone. */
  lemma {:induction false} ReadLinesKeepsUnnamed(lines: seq<string>, jar: Jar, wl: Option<seq<string>>, k: string)
    requires k !in AcceptedNames(lines, wl)
    ensures Get(ReadLines(lines, jar, wl), k) == Get(jar, k)
  {
    ReadLinesGet(lines, jar, wl, k);
    LastWriteNamesAccepted(lines, wl, k);
  }

  /** The names of the map after reading: the old names stay in place at
      the front, every accepted name is present, nothing else is added, and
      names stay distinct. */
  lemma {:induction false} ReadLinesNames(lines: seq<string>, jar: Jar, wl: Option<seq<string>>)
    ensures Names(jar) <= Names(ReadLines(lines, jar, wl))
    ensures forall n :: n in AcceptedNames(lines, wl) ==> n in Names(ReadLines(lines, jar, wl))
    ensures forall n :: n in Names(ReadLines(lines, jar, wl)) ==> n in Names(jar) || n in AcceptedNames(lines, wl)
    ensures Distinct(jar) ==> Distinct(ReadLines(lines, jar, wl))
  {
    if |lines| > 0 {
      var next := ReadLine(lines[0], jar, wl);
      var last := ReadLines(lines[1..], next, wl);
      assert ReadLines(lines, jar, wl) == last;
      ReadLineNames(lines[0], jar, wl);
      AcceptedNamesCons(lines, wl);
      ReadLinesNames(lines[1..], next, wl);
      PrefixTransitive(Names(jar), Names(next), Names(last));
    }
  }

  lemma {:induction false} PrefixTransitive(a: seq<string>, b: seq<string>, c: seq<string>)
    requires a <= b && b <= c
    ensures a <= c
  {
    assert forall i :: 0 <= i < |a| ==> a[i] == b[i] == c[i];
  }

  /** One line adds at most its own name, at the end, and keeps names
      distinct. */
  lemma {:induction false} ReadLineNames(line: string, jar: Jar, wl: Option<seq<string>>)
    ensures Names(jar) <= Names(ReadLine(line, jar, wl))
    ensures forall n :: n in Names(ReadLine(line, jar, wl)) <==>
      n in Names(jar) || (Accepted(line, wl) && n == CookieName(line))
    ensures Distinct(jar) ==> Distinct(ReadLine(line, jar, wl))
  {
    if Accepted(line, wl) {
      var name := CookieName(line);
      var r := Set(jar, name, CookieValue(line));
      if name !in Names(jar) {
        assert Names(r) == Names(jar) + [name];
      }
      if Distinct(jar) {
        SetKeepsDistinct(jar, name, CookieValue(line));
      }
    }
  }

  /** When the map already holds every accepted name, reading adds no key
      and keeps the order. */
  lemma {:induction false} ReadLinesKeepsNames(lines: seq<string>, jar: Jar, wl: Option<seq<string>>)
    requires forall n :: n in AcceptedNames(lines, wl) ==> n in Names(jar)
    ensures Names(ReadLines(lines, jar, wl)) == Names(jar)
  {
    if |lines| > 0 {
      AcceptedNamesCons(lines, wl);
      ReadLinesKeepsNames(lines[1..], ReadLine(lines[0], jar, wl), wl);
    }
  }

  /** Reading the same lines a second time changes nothing. */
  lemma {:induction false} ReadLinesIdempotent(lines: seq<string>, jar: Jar, wl: Option<seq<string>>)
    requires Distinct(jar)
    ensures ReadLines(lines, ReadLines(lines, jar, wl), wl) == ReadLines(lines, jar, wl)
  {
    var once := ReadLines(lines, jar, wl);
    var twice := ReadLines(lines, once, wl);
    ReadLinesNames(lines, jar, wl);
    ReadLinesNames(lines, once, wl);
    ReadLinesKeepsNames(lines, once, wl);
    forall k
      ensures Get(twice, k) == Get(once, k)
    {
      ReadLinesGet(lines, once, wl, k);
      ReadLinesGet(lines, jar, wl, k);
    }
    JarExtensionality(twice, once);
  }

  /** Equivalently, a header listing its lines twice over reads like the
      header listing them once. */
  lemma {:induction false} ReadDoubledHeader(lines: seq<string>, jar: Jar, wl: Option<seq<string>>)
    requires Distinct(jar)
    ensures ReadLines(lines + lines, jar, wl) == ReadLines(lines, jar, wl)
  {
    ReadLinesAppend(lines, lines, jar, wl);
    ReadLinesIdempotent(lines, jar, wl);
  }

  /** Of several accepted lines naming the same cookie, the last one sets
      its value. */
  lemma {:induction false} LastAcceptedLineWins(pre: seq<string>, line: string, post: seq<string>, jar: Jar, wl: Option<seq<string>>)
    requires Accepted(line, wl)
    requires CookieName(line) !in AcceptedNames(post, wl)
    ensures Get(ReadLines(pre + [line] + post, jar, wl), CookieName(line)) == Some(CookieValue(line))
  {
    ReadLinesAppend(pre + [line], post, jar, wl);
    ReadLinesAppend(pre, [line], jar, wl);
    ReadLinesKeepsUnnamed(post, ReadLines(pre + [line], jar, wl), wl, CookieName(line));
  }

  // ------------------------------------------------------------ white list

  /** White-list names as the API uses them: no `=` or `;`, and no leading
      white space. */
  predicate PlainName(w: string)
  {
    '=' !in w && ';' !in w && (|w| > 0 ==> !IsSpace(w[0]))
  }

  lemma {:induction false} BeforeFirstKeepsPrefix(p: string, s: string, c: char)
    requires c !in p
    ensures p <= BeforeFirst(p + s, c)
  {
    var t := p + s;
    var r := BeforeFirst(t, c);
    forall i | 0 <= i < |p|
      ensures t[i] != c
    {
      assert t[i] == p[i];
    }
    assert |p| <= |r|;
    assert forall i :: 0 <= i < |p| ==> r[i] == t[i] == p[i];
  }

  lemma {:induction false} IndexOfFirst(s: string, c: char, k: nat)
    requires k < |s| && s[k] == c && c !in s[..k]
    ensures IndexOf(s, c) == k
  {
    forall i | 0 <= i < k
      ensures s[i] != c
    {
      assert s[..k][i] == s[i];
    }
  }

  /** Trimming the end keeps a prefix that ends in a non-space. */
  lemma {:induction false} PrefixThroughTrimEnd(p: string, s: string)
    requires p <= s && |p| > 0 && !IsSpace(p[|p| - 1])
    ensures p <= TrimEnd(s)
  {
    var r := TrimEnd(s);
    assert !IsSpace(s[|p| - 1]);
    forall j | 0 <= j < |p|
      ensures r[j] == p[j]
    {
      assert r[j] == s[j];
    }
  }

  /** A text starting with `w=`, where `w` has no `=`, splits at `|w|`. */
  lemma {:induction false} PrefixIndexOf(w: string, s: string)
    requires w + "=" <= s && '=' !in w
    ensures IndexOf(s, '=') == |w|
    ensures s[..|w|] == w
  {
    var p := w + "=";
    assert s[|w|] == p[|w|];
    forall i | 0 <= i < |w|
      ensures s[..|w|][i] == w[i]
    {
      assert s[i] == p[i];
    }
    IndexOfFirst(s, '=', |w|);
  }

  /** Trimming keeps a prefix that neither starts nor ends with a space. */
  lemma {:induction false} PrefixSurvivesTrim(p: string, s: string)
    requires p <= s && |p| > 0 && !IsSpace(p[0]) && !IsSpace(p[|p| - 1])
    ensures p <= Trim(s)
  {
    assert s[0] == p[0];
    assert TrimStart(s) == s;
    PrefixThroughTrimEnd(p, s);
  }

  /** A line starting with `w=`, for a plain name `w`, is stored under `w`. */
  lemma {:induction false} PlainPrefixName(w: string, line: string)
    requires PlainName(w) && w + "=" <= line
    ensures CookieName(line) == w
  {
    var p := w + "=";
    assert line == p + line[|p|..];
    BeforeFirstKeepsPrefix(p, line[|p|..], ';');
    assert !IsSpace(p[0]) by {
      if |w| > 0 { assert p[0] == w[0]; }
    }
    assert p[|p| - 1] == '=';
    PrefixSurvivesTrim(p, BeforeFirst(line, ';'));
    PrefixIndexOf(w, CookiePair(line));
  }

  /** A line that passes a white list of plain names is stored under the
      white-listed name it starts with. */
  lemma {:induction false} WhiteListedName(line: string, wl: seq<string>)
    requires forall w :: w in wl ==> PlainName(w)
    requires Accepted(line, Some(wl))
    ensures CookieName(line) in wl
  {
    var w :| w in wl && w + "=" <= line;
    PlainPrefixName(w, line);
  }

  /** Reading through a white list of plain names only ever adds
      white-listed names to the map. */
  lemma {:induction false} ReadThroughWhiteList(lines: seq<string>, jar: Jar, wl: seq<string>)
    requires forall w :: w in wl ==> PlainName(w)
    ensures forall n :: n in Names(ReadLines(lines, jar, Some(wl))) ==> n in Names(jar) || n in wl
  {
    ReadLinesNames(lines, jar, Some(wl));
    forall n | n in AcceptedNames(lines, Some(wl))
      ensures n in wl
    {
      var i :| 0 <= i < |lines| && Accepted(lines[i], Some(wl)) && CookieName(lines[i]) == n;
      WhiteListedName(lines[i], wl);
    }
  }

  /** Through a one-name white list, the line for that name is kept and
      lines around it that do not start with `name=` are dropped. */
  lemma {:induction false} WhiteListSelects(before: string, name: string, value: string, after: string)
    requires '=' !in name && ';' !in name && ';' !in value && Trimmed(name) && Trimmed(value)
    requires !(name + "=" <= before) && !(name + "=" <= after)
    ensures ReadLines([before, name + "=" + value, after], [], Some([name])) == [(name, value)]
  {
    var line := name + "=" + value;
    assert [before, line, after] == [before] + [line, after];
    SkipRejected(before, [line, after], [], name);
    SelectsOwnLine(name, value, after);
  }

  lemma {:induction false} SelectsOwnLine(name: string, value: string, after: string)
    requires '=' !in name && ';' !in name && ';' !in value && Trimmed(name) && Trimmed(value)
    requires !(name + "=" <= after)
    ensures ReadLines([name + "=" + value, after], [], Some([name])) == [(name, value)]
  {
    var line := name + "=" + value;
    assert [line, after] == [line] + [after];
    AcceptedOwnLine(name, value);
    ReadCons(line, [after], [], Some([name]));
    OnlyRejected(after, [(name, value)], name);
  }

  lemma {:induction false} OnlyRejected(line: string, jar: Jar, w: string)
    requires !(w + "=" <= line)
    ensures ReadLines([line], jar, Some([w])) == jar
  {
    assert [line] == [line] + [];
    SkipRejected(line, [], jar, w);
  }

  /** Lines `a=1`, `sessionid=42`, `other=9` read through the white list
      `sessionid` leave exactly `sessionid -> 42` in an empty map. */
  lemma {:induction false} WhiteListExample()
    ensures ReadLines(["a=1", "sessionid=42", "other=9"], [], Some(["sessionid"])) == [("sessionid", "42")]
  {
    WhiteListSelects("a=1", "sessionid", "42", "other=9");
    assert "sessionid" + "=" + "42" == "sessionid=42";
  }

  /** Reading a line ahead of more lines is reading it, then the rest. */
  lemma {:induction false} ReadCons(line: string, rest: seq<string>, jar: Jar, wl: Option<seq<string>>)
    ensures ReadLines([line] + rest, jar, wl) == ReadLines(rest, ReadLine(line, jar, wl), wl)
  {
    assert ([line] + rest)[0] == line;
    assert ([line] + rest)[1..] == rest;
  }

  /** A line not starting with `w=` is skipped by the white list `w`. */
  lemma {:induction false} SkipRejected(line: string, rest: seq<string>, jar: Jar, w: string)
    requires !(w + "=" <= line)
    ensures ReadLines([line] + rest, jar, Some([w])) == ReadLines(rest, jar, Some([w]))
  {
    RejectedLine(line, jar, w);
    ReadCons(line, rest, jar, Some([w]));
  }

  lemma {:induction false} RejectedLine(line: string, jar: Jar, w: string)
    requires !(w + "=" <= line)
    ensures ReadLine(line, jar, Some([w])) == jar
  {
    assert !Accepted(line, Some([w])) by {
      forall x | x in [w]
        ensures !(x + "=" <= line)
      {
        assert x == w;
      }
    }
  }

  lemma {:induction false} AcceptedOwnLine(name: string, value: string)
    requires '=' !in name && ';' !in name && ';' !in value && Trimmed(name) && Trimmed(value)
    ensures ReadLine(name + "=" + value, [], Some([name])) == [(name, value)]
  {
    assert name + "=" <= name + "=" + value;
    assert name in [name];
    assert Accepted(name + "=" + value, Some([name]));
    ParseCookieLine(name, value);
  }

  // ------------------------------------------------------------ round trip

  /** A map `buildCookieHeader` can render faithfully: names without `=`
      or `;`, values without `;`, neither with surrounding white space. */
  predicate Renderable(jar: Jar)
  {
    && Distinct(jar)
    && forall i :: 0 <= i < |jar| ==>
         '=' !in jar[i].0 && ';' !in jar[i].0 && ';' !in jar[i].1 && Trimmed(jar[i].0) && Trimmed(jar[i].1)
  }

  /** The lines parse, in order, to the entries of the map. */
  predicate ParsesTo(lines: seq<string>, jar: Jar)
  {
    |lines| == |jar| &&
    forall i :: 0 <= i < |lines| ==> CookieName(lines[i]) == jar[i].0 && CookieValue(lines[i]) == jar[i].1
  }

  /** A trimmed, `;`-free line reads as the text around its first `=`. */
  lemma {:induction false} ParsePlainPair(line: string, k: nat)
    requires Trimmed(line) && ';' !in line
    requires k < |line| && line[k] == '=' && '=' !in line[..k]
    ensures CookieName(line) == line[..k]
    ensures CookieValue(line) == line[k + 1..]
  {
    BeforeFirstAbsent(line, ';');
    TrimmedIsFixed(line);
    IndexOfFirst(line, '=', k);
  }

  /** One leading space makes no difference to the reader. */
  lemma {:induction false} LeadingSpaceIgnored(line: string)
    requires ';' !in line && |line| > 0 && !IsSpace(line[0])
    ensures CookieName(" " + line) == CookieName(line)
    ensures CookieValue(" " + line) == CookieValue(line)
  {
    assert ';' !in " " + line;
    BeforeFirstAbsent(" " + line, ';');
    BeforeFirstAbsent(line, ';');
    TrimStartOneSpace(line);
  }

  lemma {:induction false} TrimStartOneSpace(line: string)
    requires |line| > 0 && !IsSpace(line[0])
    ensures TrimStart(" " + line) == line
    ensures TrimStart(line) == line
  {
    assert (" " + line)[1..] == line;
  }

  lemma {:induction false} ParseCookieLine(name: string, value: string)
    requires '=' !in name && ';' !in name && ';' !in value && Trimmed(name) && Trimmed(value)
    ensures CookieName(name + "=" + value) == name
    ensures CookieValue(name + "=" + value) == value
    ensures CookieName(" " + (name + "=" + value)) == name
    ensures CookieValue(" " + (name + "=" + value)) == value
    ensures ';' !in name + "=" + value && ';' !in " " + (name + "=" + value)
  {
    var line := name + "=" + value;
    assert Trimmed(line) by {
      if |name| > 0 { assert line[0] == name[0]; } else { assert line[0] == '='; }
      if |value| > 0 { assert line[|line| - 1] == value[|value| - 1]; } else { assert line[|line| - 1] == '='; }
    }
    assert line[..|name|] == name && line[|name|] == '=' && line[|name| + 1..] == value;
    assert CookieName(line) == name && CookieValue(line) == value by {
      assert ';' !in line;
      ParsePlainPair(line, |name|);
    }
    assert ';' !in line;
    assert ';' !in " " + line;
    LeadingSpaceIgnored(line);
  }

  /** Setting a name the map lacks appends it. */
  lemma {:induction false} SetFresh(a: Jar, n: string, v: string)
    requires n !in Names(a)
    ensures Set(a, n, v) == a + [(n, v)]
  {
    if |a| == 0 {
      assert a + [(n, v)] == [(n, v)];
    } else {
      var tail := a[1..];
      assert Names(a) == [a[0].0] + Names(tail);
      assert a[0].0 != n && n !in Names(tail);
      SetFresh(tail, n, v);
      assert Set(a, n, v) == [a[0]] + (tail + [(n, v)]);
      assert a + [(n, v)] == [a[0]] + (tail + [(n, v)]);
    }
  }

  lemma {:induction false} ReadParsedLines(lines: seq<string>, jar: Jar, i: nat)
    requires Distinct(jar) && ParsesTo(lines, jar) && i <= |jar|
    ensures ReadLines(lines[i..], jar[..i], None) == jar
    decreases |jar| - i
  {
    if i == |jar| {
      assert jar[..i] == jar;
    } else {
      ReadParsedStep(lines, jar, i);
      assert lines[i..][1..] == lines[i + 1..];
      ReadParsedLines(lines, jar, i + 1);
    }
  }

  lemma {:induction false} ReadParsedStep(lines: seq<string>, jar: Jar, i: nat)
    requires Distinct(jar) && ParsesTo(lines, jar) && i < |jar|
    ensures ReadLine(lines[i..][0], jar[..i], None) == jar[..i + 1]
  {
    assert lines[i..][0] == lines[i];
    PrefixLacksNext(jar, i);
    ReadFreshLine(lines[i], jar[..i], jar[i].0, jar[i].1);
    TakeOneMore(jar, i);
  }

  lemma {:induction false} TakeOneMore(jar: Jar, i: nat)
    requires i < |jar|
    ensures jar[..i] + [(jar[i].0, jar[i].1)] == jar[..i + 1]
  {
    assert (jar[i].0, jar[i].1) == jar[i];
  }

  /** A line naming a key the map lacks appends that entry. */
  lemma {:induction false} ReadFreshLine(line: string, before: Jar, n: string, v: string)
    requires CookieName(line) == n && CookieValue(line) == v
    requires n !in Names(before)
    ensures ReadLine(line, before, None) == before + [(n, v)]
  {
    SetFresh(before, n, v);
  }

  /** In a map with distinct names, the entries before position `i` do
      not name the entry at `i`. */
  lemma {:induction false} PrefixLacksNext(jar: Jar, i: nat)
    requires Distinct(jar) && i < |jar|
    ensures jar[i].0 !in Names(jar[..i])
  {
    var before := jar[..i];
    forall j | 0 <= j < i
      ensures Names(before)[j] != jar[i].0
    {
      assert before[j] == jar[j];
    }
  }

  /** One Set-Cookie line per entry, `name=value`, read without a white
      list into an empty map, rebuilds the map. */
  lemma {:induction false} CookieLinesRoundTrip(jar: Jar)
    requires Renderable(jar)
    ensures ReadLines(CookieLines(jar), [], None) == jar
  {
    var lines := CookieLines(jar);
    forall i | 0 <= i < |lines|
      ensures CookieName(lines[i]) == jar[i].0 && CookieValue(lines[i]) == jar[i].1
    {
      ParseCookieLine(jar[i].0, jar[i].1);
    }
    ReadParsedLines(lines, jar, 0);
    assert lines[0..] == lines && jar[..0] == [];
  }

  /** Each line with a space in front, as `"; "` leaves them after a split
      on `;`. */
  function Padded(lines: seq<string>): (r: seq<string>)
    ensures |r| == |lines|
    ensures forall i {:trigger r[i]} :: 0 <= i < |lines| ==> r[i] == " " + lines[i]
  {
    if |lines| == 0 then [] else [" " + lines[0]] + Padded(lines[1..])
  }

  /** The header puts `"; "` between consecutive entries: the first
      entry's line, the separator, then the header of the rest. */
  lemma {:induction false} CookieHeaderSeparator(jar: Jar)
    requires |jar| >= 2
    ensures BuildCookieHeader(jar) == CookieLine(jar[0]) + "; " + BuildCookieHeader(jar[1..])
  {
    var lines := CookieLines(jar);
    assert lines[1..] == CookieLines(jar[1..]);
  }

  lemma {:induction false} JoinPadded(lines: seq<string>)
    requires |lines| > 0
    ensures " " + Join(lines, "; ") == Join(Padded(lines), ";")
  {
    if |lines| > 1 {
      JoinPadded(lines[1..]);
      assert Padded(lines)[1..] == Padded(lines[1..]);
      assert " " + Join(lines, "; ") == (" " + lines[0]) + ";" + (" " + Join(lines[1..], "; "));
    }
  }

  lemma {:induction false} JoinCookieSeparator(lines: seq<string>)
    requires |lines| > 1
    ensures Join(lines, "; ") == Join([lines[0]] + Padded(lines[1..]), ";")
  {
    var rest := Join(lines[1..], "; ");
    var r := [lines[0]] + Padded(lines[1..]);
    JoinPadded(lines[1..]);
    assert r[1..] == Padded(lines[1..]);
    calc {
      Join(r, ";");
      lines[0] + ";" + Join(Padded(lines[1..]), ";");
      lines[0] + ";" + (" " + rest);
      { assert ";" + (" " + rest) == "; " + rest; }
      lines[0] + "; " + rest;
      Join(lines, "; ");
    }
  }

  /** The `Cookie` header rendered from a non-empty map, split on `;` and
      read back without a white list into an empty map, gives the map back
      (the space after each `;` is removed by the reader's trim). */
  lemma {:induction false} CookieHeaderRoundTrip(jar: Jar)
    requires Renderable(jar) && |jar| > 0
    ensures ReadLines(Split(BuildCookieHeader(jar), ';'), [], None) == jar
  {
    var lines := CookieLines(jar);
    var parts := if |lines| == 1 then lines else [lines[0]] + Padded(lines[1..]);
    if |lines| > 1 {
      JoinCookieSeparator(lines);
    }
    assert Join(lines, "; ") == Join(parts, ";");
    forall i | 0 <= i < |parts|
      ensures ';' !in parts[i]
      ensures CookieName(parts[i]) == jar[i].0 && CookieValue(parts[i]) == jar[i].1
    {
      var line := jar[i].0 + "=" + jar[i].1;
      ParseCookieLine(jar[i].0, jar[i].1);
      assert parts[i] == (if i == 0 then line else " " + line);
    }
    SplitJoin(parts, ';');
    ReadParsedLines(parts, jar, 0);
    assert parts[0..] == parts && jar[..0] == [];
  }

  // ------------------------------------------------------ one line alone

  /** A line passes the white list `wl` exactly when some entry `w` of it
      starts the line as `w=` (`whiteList.some(...)`); with no white list
      every line passes. */
  lemma {:induction false} AcceptedSome(line: string, wl: seq<string>)
    ensures Accepted(line, Some(wl)) <==> exists i :: 0 <= i < |wl| && wl[i] + "=" <= line
    ensures Accepted(line, None)
  {
    if Accepted(line, Some(wl)) {
      var w :| w in wl && w + "=" <= line;
      var i :| 0 <= i < |wl| && wl[i] == w;
    }
    if exists i :: 0 <= i < |wl| && wl[i] + "=" <= line {
      var i :| 0 <= i < |wl| && wl[i] + "=" <= line;
      assert wl[i] in wl;
    }
  }

  /** The pair a line is read from is its first `;`-delimited segment with
      the surrounding white space cut away: it starts the segment once the
      leading white space is gone, only white space follows it there, it
      is free of `;` and trimmed, and it is the whole line when the line
      is already such a pair. */
  lemma {:induction false} CookiePairOfLine(line: string)
    ensures var pair := CookiePair(line); var seg := BeforeFirst(line, ';');
      && seg <= line && ';' !in seg
      && pair <= TrimStart(seg) && AllSpace(TrimStart(seg)[|pair|..])
      && ';' !in pair && Trimmed(pair)
    ensures ';' !in line && Trimmed(line) ==> CookiePair(line) == line
  {
    var seg := BeforeFirst(line, ';');
    TrimCuts(seg);
    var t := TrimStart(seg);
    var a := |seg| - |t|;
    assert t == seg[a..];
    assert t[|CookiePair(line)|..] == seg[a + |CookiePair(line)|..];
    if ';' !in line && Trimmed(line) {
      BeforeFirstAbsent(line, ';');
      TrimmedIsFixed(line);
    }
  }

  /** The attributes after the first `;` of a Set-Cookie line play no
      part: a trimmed `name=value` followed by `;` and anything reads as
      that name and that value. */
  lemma {:induction false} AttributesIgnored(name: string, value: string, attrs: string)
    requires PlainName(name) && |name| > 0
    requires ';' !in value && (|value| > 0 ==> !IsSpace(value[|value| - 1]))
    ensures CookiePair(name + "=" + value + ";" + attrs) == name + "=" + value
    ensures CookieName(name + "=" + value + ";" + attrs) == name
    ensures CookieValue(name + "=" + value + ";" + attrs) == value
  {
    var pair := name + "=" + value;
    var line := name + "=" + value + ";" + attrs;
    PlainPairParts(name, value);
    CutAtSemicolon(pair, attrs);
    assert line == pair + ";" + attrs;
    TrimmedIsFixed(pair);
    BeforeFirstAbsent(pair, ';');
    SamePair(line, pair);
    ParsePlainPair(pair, |name|);
  }

  /** Name and value depend on the line only through its pair. */
  lemma {:induction false} SamePair(a: string, b: string)
    requires CookiePair(a) == CookiePair(b)
    ensures CookieName(a) == CookieName(b) && CookieValue(a) == CookieValue(b)
  {
  }

  /** `name=value` for a plain name and a value free of `;` that does not
      end in white space is a trimmed pair whose first `=` follows the
      name. */
  lemma {:induction false} PlainPairParts(name: string, value: string)
    requires PlainName(name) && |name| > 0
    requires ';' !in value && (|value| > 0 ==> !IsSpace(value[|value| - 1]))
    ensures var pair := name + "=" + value;
      && ';' !in pair && Trimmed(pair)
      && pair[|name|] == '=' && '=' !in pair[..|name|] && pair[..|name|] == name && pair[|name| + 1..] == value
  {
    var pair := name + "=" + value;
    assert pair[..|name|] == name && pair[|name| + 1..] == value;
    assert pair == pair[..|name|] + "=" + pair[|name| + 1..];
    assert pair[0] == name[0];
    assert pair[|pair| - 1] == if |value| > 0 then value[|value| - 1] else '=';
  }

  /** The segment before the first `;` of `p;s` is `p` when `p` has none. */
  lemma {:induction false} CutAtSemicolon(p: string, s: string)
    requires ';' !in p
    ensures CookiePair(p + ";" + s) == Trim(p)
  {
    var line := p + ";" + s;
    BeforeFirstKeepsPrefix(p, ";" + s, ';');
    assert line == p + (";" + s);
    assert line[|p|] == ';';
  }

  /** The name and the value cut from a pair holding `=` join back into
      it around the first `=`; without `=` the value is the whole pair and
      the name is the pair minus its last character. */
  lemma {:induction false} CookieNameValue(line: string)
    ensures var pair := CookiePair(line);
      '=' in pair ==> '=' !in CookieName(line) && CookieName(line) + "=" + CookieValue(line) == pair
    ensures var pair := CookiePair(line);
      '=' !in pair ==> CookieValue(line) == pair && CookieName(line) == pair[..if |pair| == 0 then 0 else |pair| - 1]
  {
    var pair := CookiePair(line);
    var k := IndexOf(pair, '=');
    if k >= 0 {
      assert pair[..k] + "=" + pair[k + 1..] == pair;
    }
  }

  /** One line sets its own name to its own value when it passes the
      white list, and touches nothing else; a rejected line changes
      nothing. */
  lemma {:induction false} ReadLineEffect(line: string, jar: Jar, wl: Option<seq<string>>)
    ensures Accepted(line, wl) ==> Get(ReadLine(line, jar, wl), CookieName(line)) == Some(CookieValue(line))
    ensures forall k :: k != CookieName(line) ==> Get(ReadLine(line, jar, wl), k) == Get(jar, k)
    ensures !Accepted(line, wl) ==> ReadLine(line, jar, wl) == jar
  {
  }
}

=== FILE: js_values.dfy ===
/** The JavaScript values the model needs to distinguish: the three
    primitive kinds `toPrimitive` keeps, `null`, `undefined`, and every
    object or array lumped together. Numbers are integers here. */
module JsValues {

  datatype Value =
    | Str(s: string)
    | Num(n: int)
    | Bool(b: bool)
    | Null
    | Undefined
    | Composite

  /** `typeof v` is `'string'`, `'number'` or `'boolean'`. */
  predicate IsPrimitive(v: Value)
  {
    v.Str? || v.Num? || v.Bool?
  }

  /** JavaScript truthiness: empty string, zero, false, null and undefined
      are falsy; objects and arrays are truthy. */
  predicate Truthy(v: Value)
  {
    match v
    case Str(s) => s != ""
    case Num(n) => n != 0
    case Bool(b) => b
    case Null => false
    case Undefined => false
    case Composite => true
  }

  /** The falsy values are exactly `''`, `0`, `false`, `null` and
      `undefined`. */
  lemma {:induction false} FalsyValues(v: Value)
    ensures !Truthy(v) <==> v in {Str(""), Num(0), Bool(false), Null, Undefined}
  {
  }

  function DigitChar(d: nat): char
    requires d < 10
  {
    "0123456789"[d]
  }

  /** The decimal numeral of a natural number, without leading zeros. */
  function Decimal(n: nat): (r: string)
    ensures |r| >= 1
    ensures forall i :: 0 <= i < |r| ==> '0' <= r[i] <= '9'
  {
    if n < 10 then [DigitChar(n)] else Decimal(n / 10) + [DigitChar(n % 10)]
  }

  /** `String(v)`, the coercion template literals and `encodeURIComponent`
      apply to their argument. Only the empty string renders empty. A
      number is written in plain digits, which is JavaScript's rendering
      for integers below 10^21 in magnitude; larger ones are written in
      exponent form there (`1e+21`) and are not modelled. */
  function JsString(v: Value): (r: string)
    ensures r == "" <==> v == Str("")
  {
    match v
    case Str(s) => s
    case Num(n) => if n < 0 then "-" + Decimal(-n) else Decimal(n)
    case Bool(b) => if b then "true" else "false"
    case Null => "null"
    case Undefined => "undefined"
    case Composite => "[object Object]"
  }

  /** The value of a numeral: the partner of `Decimal`. */
  function DigitsValue(s: string): nat
    requires forall i :: 0 <= i < |s| ==> '0' <= s[i] <= '9'
  {
    if |s| == 0 then 0 else DigitsValue(s[..|s| - 1]) * 10 + (s[|s| - 1] as int - '0' as int)
  }

  /** `Number(s)` on the strings `String` produces for integers. */
  function NumberValue(s: string): int
    requires |s| >= 1
    requires forall i :: 0 <= i < |s| ==> '0' <= s[i] <= '9' || (i == 0 && s[i] == '-' && |s| >= 2)
  {
    if s[0] == '-' then -(DigitsValue(s[1..]) as int) else DigitsValue(s)
  }

  lemma {:induction false} DigitCharValue(d: nat)
    requires d < 10
    ensures DigitChar(d) as int - '0' as int == d
  {
  }

  /** A numeral reads back as the number it renders, and has no leading
      zero. */
  lemma {:induction false} DecimalRoundTrip(n: nat)
    ensures DigitsValue(Decimal(n)) == n
    ensures |Decimal(n)| > 1 ==> Decimal(n)[0] != '0'
  {
    DigitCharValue(n % 10);
    if n >= 10 {
      DecimalRoundTrip(n / 10);
      var s := Decimal(n);
      assert s[..|s| - 1] == Decimal(n / 10);
      assert s[0] == Decimal(n / 10)[0];
      if |Decimal(n / 10)| == 1 {
        assert Decimal(n / 10) == [DigitChar(n / 10)];
        DigitCharValue(n / 10);
      }
    }
  }

  /** `Number(String(n)) === n` for every integer: `String` renders a
      number as an optional minus sign and a numeral. */
  lemma {:induction false} NumberStringRoundTrip(n: int)
    ensures var s := JsString(Num(n));
      && |s| >= 1
      && (forall i :: 0 <= i < |s| ==> '0' <= s[i] <= '9' || (i == 0 && s[i] == '-' && |s| >= 2))
      && NumberValue(s) == n
  {
    var m: nat := if n < 0 then -n else n;
    DecimalRoundTrip(m);
    var s := JsString(Num(n));
    if n < 0 {
      assert s == "-" + Decimal(m);
      assert s[1..] == Decimal(m);
    }
  }
}

=== FILE: text.dfy ===
/** The handful of JavaScript string operations the codec relies on:
    `Array.prototype.join`, `String.prototype.split` with a one-character
    separator, `indexOf`, `slice` and `trim`. */
module Text {

  /** `parts.join(sep)`: the empty list joins to the empty string. */
  function Join(parts: seq<string>, sep: string): string
  {
    if |parts| == 0 then ""
    else if |parts| == 1 then parts[0]
    else parts[0] + sep + Join(parts[1..], sep)
  }

  /** `s.split(c)` for a one-character separator: every occurrence of `c`
      cuts, so the result always has one more element than `s` has `c`s
      (in particular `"".split(c)` is `[""]`). */
  function Split(s: string, c: char): (r: seq<string>)
    ensures |r| >= 1
    ensures forall i :: 0 <= i < |r| ==> c !in r[i]
  {
    if |s| == 0 then [""]
    else
      var rest := Split(s[1..], c);
      if s[0] == c then [""] + rest
      else [[s[0]] + rest[0]] + rest[1..]
  }

  /** The first position at or after `from` that holds `c`, or `|s|`. */
  function FindFrom(s: string, c: char, from: nat): (r: nat)
    requires from <= |s|
    ensures from <= r <= |s|
    ensures r < |s| ==> s[r] == c
    ensures forall i :: from <= i < r ==> s[i] != c
    decreases |s| - from
  {
    if from == |s| || s[from] == c then from else FindFrom(s, c, from + 1)
  }

  /** `s.split(c, 1)[0]`: the text before the first `c`, or all of `s`. */
  function BeforeFirst(s: string, c: char): (r: string)
    ensures r <= s
    ensures forall i :: 0 <= i < |r| ==> r[i] != c
    ensures |r| < |s| ==> s[|r|] == c
  {
    s[..FindFrom(s, c, 0)]
  }

  lemma {:induction false} BeforeFirstAbsent(s: string, c: char)
    requires c !in s
    ensures BeforeFirst(s, c) == s
  {
    assert forall i :: 0 <= i < |s| ==> s[i] != c;
  }

  /** `s.indexOf(c)`: the first position of `c`, or -1. */
  function IndexOf(s: string, c: char): (r: int)
    ensures -1 <= r < |s|
    ensures r == -1 <==> c !in s
    ensures 0 <= r ==> s[r] == c && c !in s[..r]
  {
    var k := FindFrom(s, c, 0);
    assert k < |s| ==> s[k] in s;
    assert forall i :: 0 <= i < k ==> s[..k][i] == s[i];
    if k == |s| then -1 else k
  }

  /** `s.slice(0, end)`, where a negative `end` counts from the end of `s`
      and is clamped at 0. */
  function SliceTo(s: string, end: int): string
  {
    if end < 0 then (if |s| + end < 0 then "" else s[..|s| + end])
    else if end > |s| then s
    else s[..end]
  }

  /** `s.slice(start)` for `start >= 0`. */
  function SliceFrom(s: string, start: nat): string
  {
    if start > |s| then "" else s[start..]
  }

  /** `slice(0, end)` is a prefix whose length is `end` clamped to the
      string, a negative `end` counting back from the end; `slice(start)`
      is the suffix from `start` on, empty past the end. */
  lemma {:induction false} SliceShapes(s: string, end: int, start: nat)
    ensures SliceTo(s, end) <= s
    ensures 0 <= end ==> |SliceTo(s, end)| == (if end < |s| then end else |s|)
    ensures end < 0 ==> |SliceTo(s, end)| == (if 0 <= |s| + end then |s| + end else 0)
    ensures |SliceFrom(s, start)| == (if start < |s| then |s| - start else 0)
    ensures SliceFrom(s, start) == s[|s| - |SliceFrom(s, start)|..]
  {
  }

  /** Slicing at one position splits a string into two pieces that
      concatenate back to it. */
  lemma {:induction false} SliceSplit(s: string, k: nat)
    requires k <= |s|
    ensures SliceTo(s, k) + SliceFrom(s, k) == s
  {
    assert s[..k] + s[k..] == s;
  }

  /** The characters `String.prototype.trim` removes: ECMAScript's
      WhiteSpace (tab, vertical tab, form feed, space, no-break space,
      byte-order mark and the Zs space separators) and LineTerminator. */
  predicate IsSpace(c: char)
  {
    || c == '\t' || c == '\n' || c == '\U{000B}' || c == '\U{000C}' || c == '\r'
    || c == ' ' || c == '\U{00A0}' || c == '\U{1680}'
    || ('\U{2000}' <= c <= '\U{200A}')
    || c == '\U{2028}' || c == '\U{2029}' || c == '\U{202F}' || c == '\U{205F}'
    || c == '\U{3000}' || c == '\U{FEFF}'
  }

  /** Every character of `p` is white space. */
  predicate AllSpace(p: string)
  {
    forall i :: 0 <= i < |p| ==> IsSpace(p[i])
  }

  /** The first position at or after `from` that is not white space, or
      `|s|`. */
  function SkipSpaces(s: string, from: nat): (r: nat)
    requires from <= |s|
    ensures from <= r <= |s|
    ensures r < |s| ==> !IsSpace(s[r])
    ensures forall i :: from <= i < r ==> IsSpace(s[i])
    decreases |s| - from
  {
    if from < |s| && IsSpace(s[from]) then SkipSpaces(s, from + 1) else from
  }

  /** The end of `s[..stop]` once its trailing white space is dropped. */
  function SkipSpacesBack(s: string, stop: nat): (r: nat)
    requires stop <= |s|
    ensures r <= stop
    ensures r > 0 ==> !IsSpace(s[r - 1])
    ensures forall i :: r <= i < stop ==> IsSpace(s[i])
    decreases stop
  {
    if stop > 0 && IsSpace(s[stop - 1]) then SkipSpacesBack(s, stop - 1) else stop
  }

  function TrimStart(s: string): (r: string)
    ensures |r| <= |s| && r == s[|s| - |r|..]
    ensures |r| > 0 ==> !IsSpace(r[0])
    ensures AllSpace(s[..|s| - |r|])
    ensures |s| > 0 && !IsSpace(s[0]) ==> r == s
  {
    var k := SkipSpaces(s, 0);
    assert forall i :: 0 <= i < k ==> s[..k][i] == s[i];
    s[k..]
  }

  function TrimEnd(s: string): (r: string)
    ensures |r| <= |s| && r == s[..|r|]
    ensures |r| > 0 ==> !IsSpace(r[|r| - 1])
    ensures forall i :: 0 <= i < |s| && !IsSpace(s[i]) ==> i < |r|
  {
    s[..SkipSpacesBack(s, |s|)]
  }

  /** `s.trim()`. */
  function Trim(s: string): string
  {
    TrimEnd(TrimStart(s))
  }

  /** `trim` cuts `s` into leading white space, a trimmed middle that it
      returns, and trailing white space. */
  lemma {:induction false} TrimCuts(s: string)
    ensures var r := Trim(s); var a := |s| - |TrimStart(s)|;
      && a + |r| <= |s|
      && r == s[a..a + |r|]
      && Trimmed(r)
      && AllSpace(s[..a])
      && AllSpace(s[a + |r|..])
  {
    var t := TrimStart(s);
    var r := TrimEnd(t);
    var a := |s| - |t|;
    assert t == s[a..];
    assert s[a..a + |r|] == t[..|r|];
    TrimEndTail(t);
    assert s[a + |r|..] == t[|r|..];
  }

  /** What `trimEnd` cuts off is white space. */
  lemma {:induction false} TrimEndTail(t: string)
    ensures AllSpace(t[|TrimEnd(t)|..])
  {
    var n := |TrimEnd(t)|;
    forall i | 0 <= i < |t| - n
      ensures IsSpace(t[n..][i])
    {
      assert t[n..][i] == t[n + i];
    }
  }

  /** Neither end of `s` is a character `trim` would remove. */
  predicate Trimmed(s: string)
  {
    |s| == 0 || (!IsSpace(s[0]) && !IsSpace(s[|s| - 1]))
  }

  lemma {:induction false} TrimmedIsFixed(s: string)
    requires Trimmed(s)
    ensures Trim(s) == s
  {
  }

  /** Splitting a join on a separator the parts do not contain gives the
      parts back. */
  lemma {:induction false} SplitJoin(parts: seq<string>, c: char)
    requires |parts| >= 1
    requires forall i :: 0 <= i < |parts| ==> c !in parts[i]
    ensures Split(Join(parts, [c]), c) == parts
  {
    if |parts| == 1 {
      SplitNoSeparator(parts[0], c);
    } else {
      SplitJoin(parts[1..], c);
      assert parts[0] + [c] + Join(parts[1..], [c]) == parts[0] + ([c] + Join(parts[1..], [c]));
      SplitCutsAt(parts[0], c, Join(parts[1..], [c]));
      assert [parts[0]] + parts[1..] == parts;
    }
  }

  lemma {:induction false} SplitNoSeparator(s: string, c: char)
    requires c !in s
    ensures Split(s, c) == [s]
  {
    if |s| > 0 {
      SplitNoSeparator(s[1..], c);
      assert [s[0]] + s[1..] == s;
    }
  }

  /** A separator-free prefix followed by the separator becomes the first part. */
  lemma {:induction false} SplitCutsAt(p: string, c: char, rest: string)
    requires c !in p
    ensures Split(p + ([c] + rest), c) == [p] + Split(rest, c)
  {
    if |p| == 0 {
      assert p + ([c] + rest) == [c] + rest;
      assert ([c] + rest)[1..] == rest;
    } else {
      SplitCutsAt(p[1..], c, rest);
      assert (p + ([c] + rest))[1..] == p[1..] + ([c] + rest);
      assert [p[0]] + p[1..] == p;
    }
  }
}

=== FILE: uri_component.dfy ===
/** `encodeURIComponent` as ECMAScript defines it for well-formed strings:
    each character is turned into its UTF-8 bytes, and every byte that is
    not an unreserved ASCII character is written as `%XX` with upper-case
    hexadecimal digits. `DecodeURIComponent` is its partner: it reads `%XX`
    escapes and literal characters back into bytes and decodes them as
    UTF-8. */
module UriComponent {
  import opened Wrappers

  type Byte = b: int | 0 <= b < 256

  /** The characters `encodeURIComponent` leaves alone: ASCII letters,
      digits and `- _ . ! ~ * ' ( )`. */
  predicate IsUnreserved(c: char)
  {
    || ('A' <= c <= 'Z') || ('a' <= c <= 'z') || ('0' <= c <= '9')
    || c == '-' || c == '_' || c == '.' || c == '!' || c == '~'
    || c == '*' || c == '\'' || c == '(' || c == ')'
  }

  predicate IsUpperHex(c: char)
  {
    ('0' <= c <= '9') || ('A' <= c <= 'F')
  }

  /** Every character an encoded component can contain. */
  predicate IsEncodedChar(c: char)
  {
    IsUnreserved(c) || c == '%' || IsUpperHex(c)
  }

  // ---------------------------------------------------------------- UTF-8

  /** The UTF-8 encoding of one Unicode scalar value. */
  function Utf8Char(c: char): (bs: seq<Byte>)
    ensures 1 <= |bs| <= 4
    ensures |bs| == 1 <==> (c as int) < 0x80
    ensures |bs| == 1 ==> bs[0] == c as int
    ensures |bs| > 1 ==> bs[0] >= 0xC0
  {
    var cp := c as int;
    if cp < 0x80 then [cp]
    else if cp < 0x800 then [0xC0 + cp / 64, 0x80 + cp % 64]
    else if cp < 0x10000 then [0xE0 + cp / 4096, 0x80 + (cp / 64) % 64, 0x80 + cp % 64]
    else [0xF0 + cp / 262144, 0x80 + (cp / 4096) % 64, 0x80 + (cp / 64) % 64, 0x80 + cp % 64]
  }

  function Utf8(s: string): seq<Byte>
  {
    if |s| == 0 then [] else Utf8Char(s[0]) + Utf8(s[1..])
  }

  predicate IsContinuation(b: Byte)
  {
    0x80 <= b < 0xC0
  }

  predicate IsScalar(cp: int)
  {
    (0 <= cp < 0xD800) || (0xE000 <= cp < 0x110000)
  }

  /** Decodes the first UTF-8 sequence of `bs`, rejecting stray
      continuation bytes, overlong forms, surrogates and values above
      U+10FFFF; the number is how many bytes were consumed. */
  function DecodeFirst(bs: seq<Byte>): (r: Option<(char, nat)>)
    requires |bs| > 0
    ensures r.Some? ==> 1 <= r.value.1 <= |bs|
  {
    var b0: int := bs[0];
    if b0 < 0x80 then Some((b0 as char, 1))
    else if 0xC2 <= b0 < 0xE0 then
      if |bs| < 2 || !IsContinuation(bs[1]) then None
      else Some((Combine2(b0, bs[1]) as char, 2))
    else if 0xE0 <= b0 < 0xF0 then
      if |bs| < 3 || !IsContinuation(bs[1]) || !IsContinuation(bs[2]) then None
      else
        var cp := Combine3(b0, bs[1], bs[2]);
        if cp < 0x800 || !IsScalar(cp) then None else Some((cp as char, 3))
    else if 0xF0 <= b0 < 0xF5 then
      if |bs| < 4 || !IsContinuation(bs[1]) || !IsContinuation(bs[2]) || !IsContinuation(bs[3]) then None
      else
        var cp := Combine4(b0, bs[1], bs[2], bs[3]);
        if cp < 0x10000 || !IsScalar(cp) then None else Some((cp as char, 4))
    else None
  }

  /** The code point carried by a two-byte sequence. */
  function Combine2(b0: int, b1: int): (cp: int)
    requires 0xC2 <= b0 < 0xE0 && 0x80 <= b1 < 0xC0
    ensures 0x80 <= cp < 0x800
  {
    (b0 - 0xC0) * 64 + (b1 - 0x80)
  }

  function Combine3(b0: int, b1: int, b2: int): int
  {
    (b0 - 0xE0) * 4096 + (b1 - 0x80) * 64 + (b2 - 0x80)
  }

  function Combine4(b0: int, b1: int, b2: int, b3: int): int
  {
    (b0 - 0xF0) * 262144 + (b1 - 0x80) * 4096 + (b2 - 0x80) * 64 + (b3 - 0x80)
  }

  function Utf8Decode(bs: seq<Byte>): Option<string>
    decreases |bs|
  {
    if |bs| == 0 then Some("")
    else match DecodeFirst(bs)
      case None => None
      case Some((c, n)) =>
        match Utf8Decode(bs[n..])
        case None => None
        case Some(s) => Some([c] + s)
  }

  lemma {:induction false} DecodeFirstOfUtf8Char(c: char, rest: seq<Byte>)
    ensures DecodeFirst(Utf8Char(c) + rest) == Some((c, |Utf8Char(c)|))
  {
    var cp := c as int;
    var bs := Utf8Char(c) + rest;
    if cp < 0x80 {
    } else if cp < 0x800 {
      Split2(cp);
    } else if cp < 0x10000 {
      Split3(cp);
    } else {
      Split4(cp);
    }
  }

  lemma {:induction false} Split2(cp: int)
    requires 0x80 <= cp < 0x800
    ensures 0xC2 <= 0xC0 + cp / 64 < 0xE0
    ensures Combine2(0xC0 + cp / 64, 0x80 + cp % 64) == cp
  {
  }

  lemma {:induction false} Split3(cp: int)
    requires 0x800 <= cp < 0x10000
    ensures Combine3(0xE0 + cp / 4096, 0x80 + (cp / 64) % 64, 0x80 + cp % 64) == cp
  {
    var q := cp / 64;
    assert cp == q * 64 + cp % 64;
    assert q == (q / 64) * 64 + q % 64;
    assert q / 64 == cp / 4096;
  }

  lemma {:induction false} Split4(cp: int)
    requires 0x10000 <= cp < 0x110000
    ensures 0xF0 + cp / 262144 < 0xF5
    ensures Combine4(0xF0 + cp / 262144, 0x80 + (cp / 4096) % 64, 0x80 + (cp / 64) % 64, 0x80 + cp % 64) == cp
  {
    var q := cp / 64;
    var q2 := q / 64;
    assert cp == q * 64 + cp % 64;
    assert q == q2 * 64 + q % 64;
    assert q2 == (q2 / 64) * 64 + q2 % 64;
    assert q2 == cp / 4096;
    assert q2 / 64 == cp / 262144;
  }

  lemma {:induction false} Utf8RoundTrip(s: string)
    ensures Utf8Decode(Utf8(s)) == Some(s)
  {
    if |s| > 0 {
      var bs := Utf8(s);
      DecodeFirstOfUtf8Char(s[0], Utf8(s[1..]));
      assert bs[|Utf8Char(s[0])|..] == Utf8(s[1..]);
      Utf8RoundTrip(s[1..]);
      assert [s[0]] + s[1..] == s;
    }
  }

  // ---------------------------------------------------- percent encoding

  function HexDigit(d: int): (c: char)
    requires 0 <= d < 16
    ensures IsUpperHex(c)
  {
    if d < 10 then ('0' as int + d) as char else ('A' as int + d - 10) as char
  }

  /** The value of a hexadecimal digit of either case. */
  function HexValue(c: char): (r: Option<int>)
    ensures r.Some? ==> 0 <= r.value < 16
  {
    if '0' <= c <= '9' then Some(c as int - '0' as int)
    else if 'A' <= c <= 'F' then Some(c as int - 'A' as int + 10)
    else if 'a' <= c <= 'f' then Some(c as int - 'a' as int + 10)
    else None
  }

  function EncodeByte(b: Byte): (r: string)
    ensures forall i :: 0 <= i < |r| ==> IsEncodedChar(r[i])
  {
    if b < 0x80 && IsUnreserved(b as char) then [b as char]
    else ['%', HexDigit(b / 16), HexDigit(b % 16)]
  }

  function EncodeBytes(bs: seq<Byte>): (r: string)
    ensures forall i :: 0 <= i < |r| ==> IsEncodedChar(r[i])
  {
    if |bs| == 0 then "" else EncodeByte(bs[0]) + EncodeBytes(bs[1..])
  }

  /** `encodeURIComponent(s)`: the result only ever contains unreserved
      characters, `%` and hexadecimal digits, so in particular none of
      the separators `& = | ;` that the query and cookie formats use. */
  function EncodeURIComponent(s: string): (r: string)
    ensures forall i :: 0 <= i < |r| ==> IsEncodedChar(r[i])
    ensures '&' !in r && '=' !in r && '|' !in r && ';' !in r
  {
    EncodeBytes(Utf8(s))
  }

  /** Reads `%XX` escapes (either case) as bytes and any other character
      as its own UTF-8 bytes; a malformed escape is an error. */
  function PercentDecode(s: string): Option<seq<Byte>>
  {
    if |s| == 0 then Some([])
    else if s[0] == '%' then
      if |s| < 3 then None
      else match (HexValue(s[1]), HexValue(s[2]), PercentDecode(s[3..]))
        case (Some(h), Some(l), Some(rest)) => Some([h * 16 + l] + rest)
        case _ => None
    else match PercentDecode(s[1..])
      case None => None
      case Some(rest) => Some(Utf8Char(s[0]) + rest)
  }

  /** `decodeURIComponent(s)`, or `None` where it would throw. */
  function DecodeURIComponent(s: string): Option<string>
  {
    match PercentDecode(s)
    case None => None
    case Some(bs) => Utf8Decode(bs)
  }

  /** Decoding the escape of one byte ahead of more text yields that byte
      ahead of whatever the rest decodes to. */
  lemma {:induction false} PercentDecodeByte(b: Byte, tail: string)
    ensures PercentDecode(EncodeByte(b) + tail) ==
      (if PercentDecode(tail).Some? then Some([b] + PercentDecode(tail).value) else None)
  {
    var e := EncodeByte(b) + tail;
    if b < 0x80 && IsUnreserved(b as char) {
      assert e[0] == b as char && e[0] != '%';
      assert e[1..] == tail;
      assert Utf8Char(b as char) == [b];
    } else {
      assert e[0] == '%' && e[3..] == tail;
      assert HexValue(e[1]) == Some(b / 16);
      assert HexValue(e[2]) == Some(b % 16);
      assert (b / 16) * 16 + b % 16 == b;
    }
  }

  lemma {:induction false} PercentRoundTrip(bs: seq<Byte>)
    ensures PercentDecode(EncodeBytes(bs)) == Some(bs)
  {
    if |bs| > 0 {
      PercentRoundTrip(bs[1..]);
      assert EncodeBytes(bs) == EncodeByte(bs[0]) + EncodeBytes(bs[1..]);
      PercentDecodeByte(bs[0], EncodeBytes(bs[1..]));
      assert [bs[0]] + bs[1..] == bs;
    }
  }

  /** Decoding an encoded component gives back the original string. */
  lemma {:induction false} DecodeEncode(s: string)
    ensures DecodeURIComponent(EncodeURIComponent(s)) == Some(s)
  {
    PercentRoundTrip(Utf8(s));
    Utf8RoundTrip(s);
  }

  /** Hence the encoding is injective. */
  lemma {:induction false} EncodeInjective(s: string, t: string)
    requires EncodeURIComponent(s) == EncodeURIComponent(t)
    ensures s == t
  {
    DecodeEncode(s);
    DecodeEncode(t);
  }
}

=== FILE: utils.dfy ===
/** The pure helpers of `utils.js`: `toPrimitive`, the query-string builder
    `buildQS`, and the cookie codec `buildCookieHeader` / `readCookieHeader`
    over a cookie jar (a JavaScript `Map` from cookie name to value). */
module Utils {
  import opened Wrappers
  import opened JsValues
  import opened Text
  import opened UriComponent

  // ------------------------------------------------------------ toPrimitive

  /** `toPrimitive(value)`: strings, numbers and booleans pass through,
      everything else becomes the empty string. */
  function ToPrimitive(v: Value): (r: Value)
    ensures IsPrimitive(r)
    ensures IsPrimitive(v) ==> r == v
    ensures !IsPrimitive(v) ==> r == Str("")
  {
    if IsPrimitive(v) then v else Str("")
  }

  lemma {:induction false} ToPrimitiveIdempotent(v: Value)
    ensures ToPrimitive(ToPrimitive(v)) == ToPrimitive(v)
  {
  }

  // ---------------------------------------------------------------- buildQS

  /** A parameter object in property order; values are already coerced to
      strings (`encodeURIComponent` applies `String(...)` to them). */
  type Params = seq<(string, string)>

  function EncodePair(p: (string, string)): (r: string)
    ensures Split(r, '=') == [EncodeURIComponent(p.0), EncodeURIComponent(p.1)]
  {
    var k := EncodeURIComponent(p.0);
    var v := EncodeURIComponent(p.1);
    SplitJoin([k, v], '=');
    k + "=" + v
  }

  function EncodePairs(ps: Params): (r: seq<string>)
    ensures |r| == |ps|
    ensures forall i {:trigger r[i]} :: 0 <= i < |ps| ==> r[i] == EncodePair(ps[i])
  {
    if |ps| == 0 then [] else [EncodePair(ps[0])] + EncodePairs(ps[1..])
  }

  /** `buildQS(options)`. */
  function BuildQS(ps: Params): (r: string)
    ensures |ps| == 0 <==> r == ""
  {
    Join(EncodePairs(ps), "&")
  }

  /** The partner of `BuildQS`: split on `&`, require exactly one `=` per
      part, and percent-decode both sides. */
  function ParseQS(s: string): Option<Params>
  {
    if s == "" then Some([]) else ParsePairs(Split(s, '&'))
  }

  function ParsePairs(parts: seq<string>): Option<Params>
  {
    if |parts| == 0 then Some([])
    else
      var kv := Split(parts[0], '=');
      if |kv| != 2 then None
      else match (DecodeURIComponent(kv[0]), DecodeURIComponent(kv[1]), ParsePairs(parts[1..]))
        case (Some(k), Some(v), Some(rest)) => Some([(k, v)] + rest)
        case _ => None
  }

  /** Splitting a non-empty query string on `&` gives one part per
      parameter, in order, each holding exactly one `=` between the encoded
      name and the encoded value. */
  lemma {:induction false} BuildQSParts(ps: Params)
    requires |ps| > 0
    ensures Split(BuildQS(ps), '&') == EncodePairs(ps)
    ensures forall i :: 0 <= i < |ps| ==>
      Split(Split(BuildQS(ps), '&')[i], '=') == [EncodeURIComponent(ps[i].0), EncodeURIComponent(ps[i].1)]
  {
    var parts := EncodePairs(ps);
    forall i | 0 <= i < |parts|
      ensures '&' !in parts[i]
    {
      var k := EncodeURIComponent(ps[i].0);
      var v := EncodeURIComponent(ps[i].1);
      assert parts[i] == k + "=" + v;
      assert '&' !in k + "=" + v;
    }
    SplitJoin(parts, '&');
  }

  lemma {:induction false} ParsePairsOfEncoded(ps: Params)
    ensures ParsePairs(EncodePairs(ps)) == Some(ps)
  {
    if |ps| > 0 {
      var parts := EncodePairs(ps);
      var k := EncodeURIComponent(ps[0].0);
      var v := EncodeURIComponent(ps[0].1);
      assert parts[0] == EncodePair(ps[0]);
      assert parts[1..] == EncodePairs(ps[1..]);
      assert Split(parts[0], '=') == [k, v];
      DecodeEncode(ps[0].0);
      DecodeEncode(ps[0].1);
      ParsePairsOfEncoded(ps[1..]);
      assert ParsePairs(parts) == Some([(ps[0].0, ps[0].1)] + ps[1..]);
      assert [ps[0]] + ps[1..] == ps;
    }
  }

  /** Every parameter list survives the trip through its query string. */
  lemma {:induction false} ParseBuildQS(ps: Params)
    ensures ParseQS(BuildQS(ps)) == Some(ps)
  {
    if |ps| > 0 {
      BuildQSParts(ps);
      ParsePairsOfEncoded(ps);
    }
  }

  // ------------------------------------------------------------ cookie jar

  /** A `Map` of cookies: entries in insertion order, names distinct. */
  type Jar = seq<(string, string)>

  /** The keys of an ordered map (`[...map.keys()]`), in insertion order. */
  function Names<V>(entries: seq<(string, V)>): (r: seq<string>)
    ensures |r| == |entries|
    ensures forall i {:trigger r[i]} :: 0 <= i < |entries| ==> r[i] == entries[i].0
  {
    if |entries| == 0 then [] else [entries[0].0] + Names(entries[1..])
  }

  predicate Distinct(jar: Jar)
  {
    forall i, j :: 0 <= i < j < |jar| ==> jar[i].0 != jar[j].0
  }

  /** `map.get(name)`, absent when `map.has(name)` is false: the cookie jar's
      `cookies.get` and the update map's `updateArticles.get`. */
  function Get<V>(entries: seq<(string, V)>, name: string): (r: Option<V>)
    ensures r.None? <==> name !in Names(entries)
  {
    if |entries| == 0 then None
    else if entries[0].0 == name then Some(entries[0].1)
    else Get(entries[1..], name)
  }

  /** What `get` returns for a present key: the value of the first entry
      holding it (a `Map` holds at most one). */
  lemma {:induction false} GetFirstEntry<V>(entries: seq<(string, V)>, name: string)
    ensures Get(entries, name).Some? ==>
      exists i :: 0 <= i < |entries| && entries[i] == (name, Get(entries, name).value) &&
        forall j :: 0 <= j < i ==> entries[j].0 != name
  {
    if |entries| > 0 && entries[0].0 != name {
      var r := Get(entries[1..], name);
      GetFirstEntry(entries[1..], name);
      if r.Some? {
        var i :| 0 <= i < |entries| - 1 && entries[1..][i] == (name, r.value) &&
          forall j :: 0 <= j < i ==> entries[1..][j].0 != name;
        assert entries[i + 1] == (name, r.value);
        assert forall j :: 1 <= j < i + 1 ==> entries[j] == entries[1..][j - 1];
      }
    }
  }

  /** `cookies.set(name, value)`: an existing entry keeps its position and
      takes the new value; a new name is appended. */
  function Set(jar: Jar, name: string, value: string): (r: Jar)
    ensures Get(r, name) == Some(value)
    ensures forall k :: k != name ==> Get(r, k) == Get(jar, k)
    ensures name in Names(jar) ==> Names(r) == Names(jar)
    ensures name !in Names(jar) ==> Names(r) == Names(jar) + [name]
  {
    if |jar| == 0 then
      var r := [(name, value)];
      assert r[1..] == [] && Names(r) == [name] + Names(r[1..]);
      r
    else
      var tail := jar[1..];
      assert Names(jar) == [jar[0].0] + Names(tail);
      if jar[0].0 == name then
        var r := [(name, value)] + tail;
        assert r[0] == (name, value) && r[1..] == tail;
        assert Names(r) == [name] + Names(tail);
        r
      else
        var rest := Set(tail, name, value);
        var r := [jar[0]] + rest;
        assert r[0] == jar[0] && r[1..] == rest;
        assert Names(r) == [jar[0].0] + Names(rest);
        assert name in Names(jar) <==> name in Names(tail);
        r
  }

  lemma {:induction false} SetKeepsDistinct(jar: Jar, name: string, value: string)
    requires Distinct(jar)
    ensures Distinct(Set(jar, name, value))
  {
    var r := Set(jar, name, value);
    forall i, j | 0 <= i < j < |r|
      ensures r[i].0 != r[j].0
    {
      assert Names(r)[i] == r[i].0 && Names(r)[j] == r[j].0;
      if name !in Names(jar) && j == |jar| {
        assert r[i].0 == Names(jar)[i];
      } else {
        assert Names(r)[i] == Names(jar)[i] && Names(r)[j] == Names(jar)[j];
      }
    }
  }

  /** The tail of a non-empty map with distinct names: still distinct, and
      without the head's name. */
  lemma {:induction false} DistinctTail(a: Jar)
    requires Distinct(a) && |a| > 0
    ensures Distinct(a[1..])
    ensures Names(a[1..]) == Names(a)[1..]
    ensures a[0].0 !in Names(a[1..])
  {
    var t := a[1..];
    assert forall i :: 0 <= i < |t| ==> t[i] == a[i + 1];
  }

  lemma {:induction false} GetTail(a: Jar, k: string)
    requires |a| > 0 && k != a[0].0
    ensures Get(a, k) == Get(a[1..], k)
  {
  }

  /** Two maps with the same keys in the same order and the same values
      are the same map. */
  lemma {:induction false} JarExtensionality(a: Jar, b: Jar)
    requires Distinct(a) && Distinct(b)
    requires Names(a) == Names(b)
    requires forall k :: Get(a, k) == Get(b, k)
    ensures a == b
  {
    if |a| > 0 {
      var n := a[0].0;
      assert n == Names(a)[0] == Names(b)[0] == b[0].0;
      assert Get(a, n) == Some(a[0].1) && Get(b, n) == Some(b[0].1);
      DistinctTail(a);
      DistinctTail(b);
      forall k
        ensures Get(a[1..], k) == Get(b[1..], k)
      {
        if k != n {
          GetTail(a, k);
          GetTail(b, k);
        }
      }
      JarExtensionality(a[1..], b[1..]);
      assert a == [a[0]] + a[1..];
      assert b == [b[0]] + b[1..];
    }
  }

  // ------------------------------------------------------ buildCookieHeader

  function CookieLine(entry: (string, string)): string
  {
    entry.0 + "=" + entry.1
  }

  function CookieLines(jar: Jar): (r: seq<string>)
    ensures |r| == |jar|
    ensures forall i {:trigger r[i]} :: 0 <= i < |jar| ==> r[i] == CookieLine(jar[i])
  {
    if |jar| == 0 then [] else [CookieLine(jar[0])] + CookieLines(jar[1..])
  }

  /** `buildCookieHeader(cookies)`: `name=value` per entry, in map order,
      joined by `"; "`. */
  function BuildCookieHeader(jar: Jar): (r: string)
    ensures |jar| == 0 ==> r == ""
    ensures |jar| > 0 ==> CookieLine(jar[0]) <= r
  {
    Join(CookieLines(jar), "; ")
  }

  // ------------------------------------------------------- readCookieHeader

  /** The value `readCookieHeader` returns: the empty string when the
      header is absent, otherwise the (mutated) map. */
  datatype CookieRead = EmptyString | Cookies(jar: Jar)

  /** A Set-Cookie line passes the optional white list when it starts with
      `name=` for some listed name. */
  predicate Accepted(line: string, whiteList: Option<seq<string>>)
  {
    whiteList.None? || exists w {:trigger w in whiteList.value} :: w in whiteList.value && w + "=" <= line
  }

  /** The first `;`-delimited segment of a Set-Cookie line, trimmed. */
  function CookiePair(line: string): string
  {
    Trim(BeforeFirst(line, ';'))
  }

  /** Text before the first `=` of the pair; with no `=` at all, `slice(0, -1)`
      drops the last character. */
  function CookieName(line: string): string
  {
    var pair := CookiePair(line);
    SliceTo(pair, IndexOf(pair, '='))
  }

  /** Text after the first `=` of the pair; with no `=`, the whole pair. */
  function CookieValue(line: string): string
  {
    var pair := CookiePair(line);
    SliceFrom(pair, IndexOf(pair, '=') + 1)
  }

  /** The effect of one line on the map. */
  function ReadLine(line: string, jar: Jar, whiteList: Option<seq<string>>): Jar
  {
    if Accepted(line, whiteList) then Set(jar, CookieName(line), CookieValue(line)) else jar
  }

  /** The loop of `readCookieHeader` over the header lines, in order. */
  function ReadLines(lines: seq<string>, jar: Jar, whiteList: Option<seq<string>>): Jar
  {
    if |lines| == 0 then jar else ReadLines(lines[1..], ReadLine(lines[0], jar, whiteList), whiteList)
  }

  /** `readCookieHeader(header, cookies, whiteList)`: the return value. */
  function ReadCookieHeader(header: Option<seq<string>>, jar: Jar, whiteList: Option<seq<string>>): (r: CookieRead)
    ensures header.None? <==> r == EmptyString
  {
    match header
    case None => EmptyString
    case Some(lines) => Cookies(ReadLines(lines, jar, whiteList))
  }

  /** The contents of the map passed in as `cookies` once
      `readCookieHeader` returns: it is changed in place, and an absent
      header leaves it untouched. */
  function JarAfterRead(header: Option<seq<string>>, jar: Jar, whiteList: Option<seq<string>>): (r: Jar)
    ensures header.None? ==> r == jar
    ensures ReadCookieHeader(header, jar, whiteList).Cookies? ==> r == ReadCookieHeader(header, jar, whiteList).jar
  {
    if header.None? then jar else ReadLines(header.value, jar, whiteList)
  }

  /** The value the last accepted line naming `name` assigns, if any. */
  function LastWrite(lines: seq<string>, whiteList: Option<seq<string>>, name: string): Option<string>
  {
    if |lines| == 0 then None
    else
      var later := LastWrite(lines[1..], whiteList, name);
      if later.Some? then later
      else if Accepted(lines[0], whiteList) && CookieName(lines[0]) == name then Some(CookieValue(lines[0]))
      else None
  }

  /** The names the accepted lines write. */
  function AcceptedNames(lines: seq<string>, whiteList: Option<seq<string>>): set<string>
  {
    set i | 0 <= i < |lines| && Accepted(lines[i], whiteList) :: CookieName(lines[i])
  }
}

=== FILE: wikia_api.dfy ===
/** `wikia-api.js`: the legacy two-phase `action=login` handshake of the
    MediaWiki 1.19 Action API, the batched edit-token query, the per-page
    edit decision and the sequential run that ties them together.

    Every HTTP exchange is abstract: the module builds the request record
    the code would send, and the server's answer is an input (a `Reply`).
    A run consumes a script of replies, one per request, in order. */
module WikiaApi {
  import opened Wrappers
  import opened JsValues
  import opened Text
  import opened Utils
  import CookieProofs

  // ----------------------------------------------------------- data model

  /** `WikiaCookies`: the only Set-Cookie names the session keeps. */
  const WikiaCookies: seq<string> := [
    "wikia_session_id", "wikicities_session",
    "wikicitiesUserID", "wikicitiesUserName", "wikicitiesToken", "access_token"
  ]

  datatype Credentials = Credentials(username: string, password: string, registeredBot: bool)

  /** The update map (`updateArticles`): page title to replacement text,
      in insertion order; a falsy text means "leave the page alone". A
      JavaScript `Map` holds each title at most once. The model does not
      require that: a lookup returns the first entry holding the title
      (`Utils.GetFirstEntry`), which for a map with distinct titles is the
      only one. */
  type UpdateMap = seq<(string, Value)>

  /** `content.login` of a login reply, when it is a truthy object; a field
      the server left out is `Undefined`. */
  datatype LoginObject = LoginObject(result: Value, token: Value, lgtoken: Value, sessionid: Value)

  /** One value of `content.query.pages`. */
  datatype PageInfo = PageInfo(title: Value, edittoken: Value)

  /** `content.query.pages`: missing or falsy (also when `query` itself is),
      truthy but not an object, or an object whose values are listed in
      the order `Object.values` yields them. */
  datatype Pages = NoPages | NotAnObject | PageObject(values: seq<PageInfo>)

  /** `content.error`, when truthy. */
  datatype ErrorObject = ErrorObject(info: Value)

  /** The parsed JSON body. `FalsyContent` stands for `null`, `false`, `0`
      or `""`; any other body is `Json`, with `None` for a falsy or missing
      `login` / `error` member. */
  datatype Content =
    | FalsyContent
    | Json(login: Option<LoginObject>, pages: Pages, error: Option<ErrorObject>)

  datatype Body = Parsed(content: Content) | Unparsable

  /** What the server does with one request: the request fails with a
      socket `'error'` (`NoReply`), or the server answers with optional
      Set-Cookie lines and a body. A server that stays silent is not a
      reply: the 1000 ms socket timeout has no listener, so nothing ends
      such a request. */
  datatype Reply = NoReply | Reply(setCookie: Option<seq<string>>, body: Body)

  datatype Error =
    | TransportError
    | ParseError
    | InvalidResponse
    | LoginFailed
    | EditFailed(message: string)
    | ReferenceError(identifier: string)

  /** `authEnv`: the session jar, the first-step `token`, and the
      `lgtoken` / `sessionid` the confirm step adds. */
  datatype AuthEnv = AuthEnv(cookies: Jar, token: Value, lgtoken: Option<Value>, sessionid: Option<Value>)

  datatype Method = HttpGet | HttpPost

  /** A request as sent to `https://host/api.php`: URL query parameters
      (written with `BuildQS`), the `Cookie` header if any, and the
      url-encoded form body if any. */
  datatype Request = Request(verb: Method, host: string, query: Params, cookie: Option<string>, form: Option<Params>)

  /** The value of the first parameter called `key`. */
  function Param(ps: Params, key: string): Option<string>
  {
    if |ps| == 0 then None else if ps[0].0 == key then Some(ps[0].1) else Param(ps[1..], key)
  }

  /** The three kinds of request a run issues. */
  predicate IsLoginRequest(r: Request)
  {
    r.verb == HttpPost && r.form.None? && Param(r.query, "action") == Some("login")
  }

  predicate IsFetchRequest(r: Request)
  {
    r.verb == HttpGet && Param(r.query, "action") == Some("query")
  }

  predicate IsEditRequest(r: Request)
  {
    r.verb == HttpPost && r.form.Some? && Param(r.form.value, "action") == Some("edit")
  }

  // ------------------------------------------------------------- reqJSON

  /** The session's cookie map keeps its names in place and only ever
      gains white-listed ones. */
  predicate Grows(before: Jar, after: Jar)
  {
    && Names(before) <= Names(after)
    && (forall n {:trigger n in Names(after)} :: n in Names(after) ==> n in Names(before) || n in WikiaCookies)
    && (Distinct(before) ==> Distinct(after))
  }

  lemma {:induction false} WikiaCookiesArePlain()
    ensures forall w :: w in WikiaCookies ==> CookieProofs.PlainName(w)
  {
  }

  /** `reqJSON(reqOptions, cookies)` with `readCookieHeader` in scope: the
      reply's white-listed cookies are written into `cookies`, then the
      body is parsed. */
  function ReqJson(jar: Jar, reply: Reply): (r: Result<(Jar, Content), Error>)
    ensures reply.NoReply? ==> r == Err(TransportError)
    ensures reply.Reply? && reply.body.Unparsable? ==> r == Err(ParseError)
    ensures reply.Reply? && reply.body.Parsed? ==> r.Ok? && r.value.1 == reply.body.content
    ensures r.Ok? ==> Grows(jar, r.value.0)
  {
    match reply
    case NoReply => Err(TransportError)
    case Reply(setCookie, body) =>
      var after := JarAfterRead(setCookie, jar, Some(WikiaCookies));
      if setCookie.Some? then
        CookieProofs.ReadLinesNames(setCookie.value, jar, Some(WikiaCookies));
        WikiaCookiesArePlain();
        CookieProofs.ReadThroughWhiteList(setCookie.value, jar, WikiaCookies);
        ReqJsonResult(after, body)
      else ReqJsonResult(after, body)
  }

  function ReqJsonResult(after: Jar, body: Body): Result<(Jar, Content), Error>
  {
    match body
    case Unparsable => Err(ParseError)
    case Parsed(content) => Ok((after, content))
  }

  /** `reqJSON` as written: `readCookieHeader` is called at line 47 but never
      imported, so every reply that arrives throws a `ReferenceError`
      before the body is read. The throw happens in the `'response'`
      listener, outside the promise executor, so it is an uncaught
      exception rather than a rejection; `Err` stands for it here. */
  function ReqJsonAsWritten(jar: Jar, reply: Reply): (r: Result<(Jar, Content), Error>)
    ensures r.Err?
  {
    match reply
    case NoReply => Err(TransportError)
    case Reply(_, _) => Err(ReferenceError("readCookieHeader"))
  }

  // ----------------------------------------------------------- postLogin

  function LoginParams(creds: Credentials): Params
  {
    [("action", "login"), ("lgname", creds.username), ("lgpassword", creds.password), ("format", "json")]
  }

  /** The first login request: a POST with no Cookie header. */
  function LoginRequest(host: string, creds: Credentials): Request
  {
    Request(HttpPost, host, LoginParams(creds), None, None)
  }

  /** Where the first login step leaves the session. */
  datatype LoginStep = Authenticated(env: AuthEnv) | NeedConfirm(env: AuthEnv) | LoginError(error: Error)

  /** The decision `postLogin` takes on the first reply. */
  function PostLogin(reply: Reply): (r: LoginStep)
    ensures !r.LoginError? ==>
      && IsPrimitive(r.env.token)
      && r.env.lgtoken.None? && r.env.sessionid.None?
      && Distinct(r.env.cookies)
      && forall n :: n in Names(r.env.cookies) ==> n in WikiaCookies
  {
    match ReqJson([], reply)
    case Err(e) => LoginError(e)
    case Ok((jar, content)) =>
      if !content.Json? || content.login.None? || !Truthy(content.login.value.token) then LoginError(InvalidResponse)
      else
        var login := content.login.value;
        if login.result != Str("Success") && login.result != Str("NeedToken") then LoginError(LoginFailed)
        else
          var env := AuthEnv(jar, ToPrimitive(login.token), None, None);
          if login.result == Str("Success") then Authenticated(env) else NeedConfirm(env)
  }

  // ------------------------------------------------ postLoginConfirmToken

  function ConfirmParams(creds: Credentials, token: Value): Params
  {
    [("action", "login"), ("lgname", creds.username), ("lgpassword", creds.password),
     ("lgtoken", JsString(token)), ("format", "json")]
  }

  /** The confirm request: `lgtoken` is the first step's token and the
      Cookie header is rendered from the first step's jar. */
  function ConfirmRequest(host: string, creds: Credentials, env: AuthEnv): Request
  {
    Request(HttpPost, host, ConfirmParams(creds, env.token), Some(BuildCookieHeader(env.cookies)), None)
  }

  /** The decision `postLoginConfirmToken` takes on the confirm reply; the
      jar it threads is the session's own. */
  function PostLoginConfirmToken(env: AuthEnv, reply: Reply): (r: Result<AuthEnv, Error>)
    ensures r.Ok? ==>
      && r.value.token == env.token
      && Grows(env.cookies, r.value.cookies)
      && r.value.lgtoken.Some? && IsPrimitive(r.value.lgtoken.value)
      && r.value.sessionid.Some? && IsPrimitive(r.value.sessionid.value)
  {
    match ReqJson(env.cookies, reply)
    case Err(e) => Err(e)
    case Ok((jar, content)) =>
      if !content.Json? || content.login.None? || !Truthy(content.login.value.lgtoken) then Err(InvalidResponse)
      else
        var login := content.login.value;
        Ok(env.(cookies := jar, lgtoken := Some(ToPrimitive(login.lgtoken)), sessionid := Some(ToPrimitive(login.sessionid))))
  }

  // -------------------------------------------------------- reply script

  /** The part of a run carried out so far: the requests issued, the
      outcome, and the replies not yet consumed. */
  datatype Stage<T> = Stage(trace: seq<Request>, result: Result<T, Error>, rest: seq<Reply>)

  /** The reply to the next request; past the end of the script a
      request fails with a socket error. */
  function Next(replies: seq<Reply>): Reply
  {
    if |replies| == 0 then NoReply else replies[0]
  }

  function Later(replies: seq<Reply>): seq<Reply>
  {
    if |replies| == 0 then [] else replies[1..]
  }

  /** `postLogin` as a whole, confirm round trip included. */
  function Login(host: string, creds: Credentials, replies: seq<Reply>): (s: Stage<AuthEnv>)
    ensures 1 <= |s.trace| <= 2 && s.trace[0] == LoginRequest(host, creds)
  {
    var first := LoginRequest(host, creds);
    match PostLogin(Next(replies))
    case LoginError(e) => Stage([first], Err(e), Later(replies))
    case Authenticated(env) => Stage([first], Ok(env), Later(replies))
    case NeedConfirm(env) =>
      var rest := Later(replies);
      Stage([first, ConfirmRequest(host, creds, env)], PostLoginConfirmToken(env, Next(rest)), Later(rest))
  }

  // --------------------------------------------------------- getEditInfo

  function FetchParams(updates: UpdateMap): Params
  {
    [("action", "query"), ("prop", "info"), ("intoken", "edit"),
     ("titles", Join(Names(updates), "|")), ("indexpageids", ""), ("format", "json")]
  }

  /** The one edit-token query: a GET naming every title of the map. */
  function FetchRequest(host: string, updates: UpdateMap, env: AuthEnv): Request
  {
    Request(HttpGet, host, FetchParams(updates), Some(BuildCookieHeader(env.cookies)), None)
  }

  /** `getEditInfo` with the session jar passed to `reqJSON`, as
      `updatePage` does: the reply's cookies join the session. */
  function GetEditInfo(env: AuthEnv, reply: Reply): (r: Result<(AuthEnv, seq<PageInfo>), Error>)
    ensures r.Ok? ==> r.value.0 == env.(cookies := r.value.0.cookies) && Grows(env.cookies, r.value.0.cookies)
  {
    match ReqJson(env.cookies, reply)
    case Err(e) => Err(e)
    case Ok((jar, content)) =>
      if !content.Json? || !content.pages.PageObject? then Err(InvalidResponse)
      else Ok((env.(cookies := jar), content.pages.values))
  }

  /** `getEditInfo` as written: `reqJSON` gets no jar, so it reads the
      reply's cookies into a fresh map that is then dropped. */
  function GetEditInfoAsWritten(env: AuthEnv, reply: Reply): (r: Result<(AuthEnv, seq<PageInfo>), Error>)
    ensures r.Ok? ==> r.value.0 == env
  {
    match ReqJson([], reply)
    case Err(e) => Err(e)
    case Ok((_, content)) =>
      if !content.Json? || !content.pages.PageObject? then Err(InvalidResponse)
      else Ok((env, content.pages.values))
  }

  // ---------------------------------------------------------- updatePage

  const EditSummary: string := "Update latest chapter"

  function EditParams(title: string, text: Value, edittoken: Value, registeredBot: bool): Params
  {
    [("action", "edit"), ("title", title), ("text", JsString(text)), ("summary", EditSummary),
     ("token", JsString(edittoken)), ("assert", if registeredBot then "bot" else "user"), ("format", "json")]
  }

  /** What `updatePage` does with one page: nothing, or one edit. */
  datatype EditPlan = Skip | Edit(form: Params)

  function PlanEdit(updates: UpdateMap, page: PageInfo, registeredBot: bool): EditPlan
  {
    if !page.title.Str? then Skip
    else match Get(updates, page.title.s)
      case None => Skip
      case Some(text) =>
        if !Truthy(text) then Skip else Edit(EditParams(page.title.s, text, page.edittoken, registeredBot))
  }

  /** The edit: a POST with the form in the body and the session's Cookie
      header. */
  function EditRequest(host: string, env: AuthEnv, form: Params): Request
  {
    Request(HttpPost, host, [], Some(BuildCookieHeader(env.cookies)), Some(form))
  }

  /** `new Error(toPrimitive(error.info) || 'Edit failed').message`: the
      server's `info` when it is a truthy string, number or boolean,
      rendered as a string; the fixed text otherwise. */
  function EditFailureMessage(e: ErrorObject): (m: string)
    ensures m != ""
    ensures e.info.Str? && e.info.s != "" ==> m == e.info.s
    ensures IsPrimitive(e.info) && Truthy(e.info) ==> m == JsString(e.info)
    ensures !(IsPrimitive(e.info) && Truthy(e.info)) ==> m == "Edit failed"
  {
    var info := ToPrimitive(e.info);
    if Truthy(info) then
      assert info.Str? ==> info.s != "";
      assert info.Num? ==> info.n != 0 && |Decimal(if info.n < 0 then -info.n else info.n)| >= 1;
      JsString(info)
    else "Edit failed"
  }

  /** The edit reply checked at the level the code means: the parsed
      content's `error` member. */
  function CheckEdit(env: AuthEnv, reply: Reply): (r: Result<AuthEnv, Error>)
    ensures r.Ok? ==> r.value == env.(cookies := r.value.cookies) && Grows(env.cookies, r.value.cookies)
  {
    match ReqJson(env.cookies, reply)
    case Err(e) => Err(e)
    case Ok((jar, content)) =>
      if content.Json? && content.error.Some? then Err(EditFailed(EditFailureMessage(content.error.value)))
      else Ok(env.(cookies := jar))
  }

  /** The edit reply checked as written: the callback receives the
      `{cookies, content}` wrapper, whose `error` member never exists. */
  function CheckEditAsWritten(env: AuthEnv, reply: Reply): (r: Result<AuthEnv, Error>)
    ensures r.Err? ==> r.error == TransportError || r.error == ParseError
  {
    match ReqJson(env.cookies, reply)
    case Err(e) => Err(e)
    case Ok((jar, _)) => Ok(env.(cookies := jar))
  }

  // ---------------------------------------------------------- execUpdate

  /** The edits a list of pages calls for, in order. */
  function Planned(updates: UpdateMap, pages: seq<PageInfo>, registeredBot: bool): seq<Params>
  {
    if |pages| == 0 then []
    else match PlanEdit(updates, pages[0], registeredBot)
      case Skip => Planned(updates, pages[1..], registeredBot)
      case Edit(form) => [form] + Planned(updates, pages[1..], registeredBot)
  }

  /** The form bodies of a list of requests. */
  function Forms(trace: seq<Request>): seq<Params>
  {
    if |trace| == 0 then []
    else (if trace[0].form.Some? then [trace[0].form.value] else []) + Forms(trace[1..])
  }

  /** The `for … of pages` loop of `execUpdate`: one page at a time, in
      the order received, stopping at the first failure. */
  function UpdatePages(host: string, updates: UpdateMap, pages: seq<PageInfo>, env: AuthEnv,
                       registeredBot: bool, replies: seq<Reply>): (s: Stage<AuthEnv>)
    ensures forall i :: 0 <= i < |s.trace| ==> IsEditRequest(s.trace[i])
    ensures s.result.Ok? ==> Grows(env.cookies, s.result.value.cookies)
    decreases |pages|
  {
    if |pages| == 0 then Stage([], Ok(env), replies)
    else match PlanEdit(updates, pages[0], registeredBot)
      case Skip => UpdatePages(host, updates, pages[1..], env, registeredBot, replies)
      case Edit(form) =>
        var req := EditRequest(host, env, form);
        match CheckEdit(env, Next(replies))
        case Err(e) => Stage([req], Err(e), Later(replies))
        case Ok(env') =>
          var rest := UpdatePages(host, updates, pages[1..], env', registeredBot, Later(replies));
          Stage([req] + rest.trace, rest.result, rest.rest)
  }

  /** The outcome of a whole run and every request it issued, in order. */
  datatype Run = Run(trace: seq<Request>, outcome: Result<AuthEnv, Error>)

  /** `execUpdate(host, updateArticles, credentials)`. */
  function ExecUpdate(host: string, updates: UpdateMap, creds: Credentials, replies: seq<Reply>): (r: Run)
    ensures |r.trace| >= 1 && r.trace[0] == LoginRequest(host, creds)
  {
    var login := Login(host, creds, replies);
    match login.result
    case Err(e) => Run(login.trace, Err(e))
    case Ok(env) =>
      var fetch := FetchRequest(host, updates, env);
      match GetEditInfo(env, Next(login.rest))
      case Err(e) => Run(login.trace + [fetch], Err(e))
      case Ok((env', pages)) =>
        var edits := UpdatePages(host, updates, pages, env', creds.registeredBot, Later(login.rest));
        Run(login.trace + [fetch] + edits.trace, edits.result)
  }
}

=== FILE: wikia_proofs.dfy ===
/** Properties of the login handshake, the edit-token query, the page
    decisions and the whole run. */
module WikiaProofs {
  import opened Wrappers
  import opened JsValues
  import opened Text
  import opened Utils
  import opened WikiaApi
  import CookieProofs

  /** The jar the first reply leaves in a fresh map. */
  function FirstJar(reply: Reply): Jar
    requires reply.Reply?
  {
    JarAfterRead(reply.setCookie, [], Some(WikiaCookies))
  }

  /** A reply that arrived and parsed, with a `login` object. */
  predicate HasLogin(reply: Reply)
  {
    reply.Reply? && reply.body.Parsed? && reply.body.content.Json? && reply.body.content.login.Some?
  }

  function LoginOf(reply: Reply): LoginObject
    requires HasLogin(reply)
  {
    reply.body.content.login.value
  }

  /** A parsed reply hands its content on, with the white-listed cookies
      written into the jar. */
  lemma {:induction false} ReqJsonParsed(jar: Jar, setCookie: Option<seq<string>>, content: Content)
    ensures ReqJson(jar, Reply(setCookie, Parsed(content))) ==
      Ok((JarAfterRead(setCookie, jar, Some(WikiaCookies)), content))
  {
  }

  /** The value of a parameter is the one at its first occurrence. */
  lemma {:induction false} ParamAt(ps: Params, i: nat, key: string)
    requires i < |ps| && ps[i].0 == key
    requires forall j :: 0 <= j < i ==> ps[j].0 != key
    ensures Param(ps, key) == Some(ps[i].1)
  {
    if i > 0 {
      ParamAt(ps[1..], i - 1, key);
    }
  }

  /** A key no entry carries has no value. */
  lemma {:induction false} ParamAbsent(ps: Params, key: string)
    requires forall j :: 0 <= j < |ps| ==> ps[j].0 != key
    ensures Param(ps, key).None?
  {
    if |ps| > 0 {
      assert forall j :: 0 <= j < |ps| - 1 ==> ps[1..][j] == ps[j + 1];
      ParamAbsent(ps[1..], key);
    }
  }

  // ------------------------------------------------------- first step

  /** The first step fails with `InvalidResponse` exactly when a parsed
      reply lacks a truthy `login.token`, whatever `login.result` says. */
  lemma {:induction false} FirstStepInvalid(reply: Reply)
    ensures PostLogin(reply) == LoginError(InvalidResponse) <==>
      reply.Reply? && reply.body.Parsed? && (!HasLogin(reply) || !Truthy(LoginOf(reply).token))
  {
  }

  /** It fails with `LoginFailed` exactly when the token is there but the
      result is neither `Success` nor `NeedToken`. */
  lemma {:induction false} FirstStepLoginFailed(reply: Reply)
    ensures PostLogin(reply) == LoginError(LoginFailed) <==>
      HasLogin(reply) && Truthy(LoginOf(reply).token) &&
      LoginOf(reply).result != Str("Success") && LoginOf(reply).result != Str("NeedToken")
  {
  }

  /** A `Failed` result without a token is reported as an invalid reply,
      not as a failed login. */
  lemma {:induction false} FailedWithoutTokenIsInvalid(cookies: Option<seq<string>>)
    ensures PostLogin(Reply(cookies, Parsed(Json(Some(LoginObject(Str("Failed"), Undefined, Undefined, Undefined)), NoPages, None))))
            == LoginError(InvalidResponse)
  {
  }

  /** On `Success` the run is authenticated after one request, with the
      coerced token and the first reply's jar. */
  lemma {:induction false} SuccessNeedsNoConfirm(host: string, creds: Credentials, replies: seq<Reply>)
    requires HasLogin(Next(replies)) && Truthy(LoginOf(Next(replies)).token)
    requires LoginOf(Next(replies)).result == Str("Success")
    ensures Login(host, creds, replies).trace == [LoginRequest(host, creds)]
    ensures Login(host, creds, replies).result ==
      Ok(AuthEnv(FirstJar(Next(replies)), ToPrimitive(LoginOf(Next(replies)).token), None, None))
  {
    var reply := Next(replies);
    ReqJsonParsed([], reply.setCookie, reply.body.content);
  }

  /** On `NeedToken` exactly one confirm request follows; it carries the
      first step's token as `lgtoken` and the first jar as its Cookie
      header, and the confirm exchange threads that same jar. */
  lemma {:induction false} NeedTokenConfirmsOnce(host: string, creds: Credentials, replies: seq<Reply>)
    requires HasLogin(Next(replies)) && Truthy(LoginOf(Next(replies)).token)
    requires LoginOf(Next(replies)).result == Str("NeedToken")
    ensures var env := AuthEnv(FirstJar(Next(replies)), ToPrimitive(LoginOf(Next(replies)).token), None, None);
      var s := Login(host, creds, replies);
      && s.trace == [LoginRequest(host, creds), ConfirmRequest(host, creds, env)]
      && Param(s.trace[1].query, "lgtoken") == Some(JsString(ToPrimitive(LoginOf(Next(replies)).token)))
      && s.trace[1].cookie == Some(BuildCookieHeader(FirstJar(Next(replies))))
      && s.result == PostLoginConfirmToken(env, Next(Later(replies)))
  {
    var reply := Next(replies);
    ReqJsonParsed([], reply.setCookie, reply.body.content);
    var env := AuthEnv(FirstJar(reply), ToPrimitive(LoginOf(reply).token), None, None);
    ParamAt(ConfirmParams(creds, env.token), 3, "lgtoken");
  }

  // ----------------------------------------------------- confirm step

  /** The confirm step fails with `InvalidResponse` exactly when a parsed
      reply lacks a truthy `login.lgtoken`; otherwise it records `lgtoken`
      and `sessionid`, keeps `token`, and the jar is the session's own jar
      with the confirm reply's cookies written in. */
  lemma {:induction false} ConfirmOutcome(env: AuthEnv, reply: Reply)
    ensures PostLoginConfirmToken(env, reply) == Err(InvalidResponse) <==>
      reply.Reply? && reply.body.Parsed? && (!HasLogin(reply) || !Truthy(LoginOf(reply).lgtoken))
    ensures HasLogin(reply) && Truthy(LoginOf(reply).lgtoken) ==>
      PostLoginConfirmToken(env, reply) == Ok(AuthEnv(
        JarAfterRead(reply.setCookie, env.cookies, Some(WikiaCookies)),
        env.token, Some(ToPrimitive(LoginOf(reply).lgtoken)), Some(ToPrimitive(LoginOf(reply).sessionid))))
  {
  }

  /** A server answering `NeedToken`/`T1` and then `lgtoken = T2`,
      `sessionid = S` leaves the session holding `T1`, `T2` and `S`. */
  lemma {:induction false} TwoStepScenario(host: string, creds: Credentials, t1: string, t2: string, sid: string)
    requires t1 != "" && t2 != ""
    ensures var replies := [
        Reply(None, Parsed(Json(Some(LoginObject(Str("NeedToken"), Str(t1), Undefined, Undefined)), NoPages, None))),
        Reply(None, Parsed(Json(Some(LoginObject(Str("Success"), Undefined, Str(t2), Str(sid))), NoPages, None)))];
      var s := Login(host, creds, replies);
      && |s.trace| == 2
      && s.result == Ok(AuthEnv([], Str(t1), Some(Str(t2)), Some(Str(sid))))
  {
  }

  /** A server answering `Success` straight away authenticates the
      session with a single request. */
  lemma {:induction false} OneStepScenario(host: string, creds: Credentials, t1: string)
    requires t1 != ""
    ensures var replies := [Reply(None, Parsed(Json(Some(LoginObject(Str("Success"), Str(t1), Undefined, Undefined)), NoPages, None)))];
      var s := Login(host, creds, replies);
      s.trace == [LoginRequest(host, creds)] && s.result == Ok(AuthEnv([], Str(t1), None, None))
  {
  }

  // ------------------------------------------------------ edit tokens

  /** The edit-token query names every title of the map in one `titles`
      parameter joined by `|`, and carries the session's Cookie header. */
  lemma {:induction false} FetchIsBatched(host: string, updates: UpdateMap, env: AuthEnv)
    ensures Param(FetchRequest(host, updates, env).query, "titles") == Some(Join(Names(updates), "|"))
    ensures FetchRequest(host, updates, env).cookie == Some(BuildCookieHeader(env.cookies))
    ensures var r := FetchRequest(host, updates, env);
      && IsFetchRequest(r) && r.form.None?
      && Param(r.query, "prop") == Some("info")
      && Param(r.query, "intoken") == Some("edit")
      && Param(r.query, "indexpageids") == Some("")
      && Param(r.query, "format") == Some("json")
  {
    var q := FetchParams(updates);
    ParamAt(q, 1, "prop");
    ParamAt(q, 2, "intoken");
    ParamAt(q, 3, "titles");
    ParamAt(q, 4, "indexpageids");
    ParamAt(q, 5, "format");
  }

  /** Titles free of `|` can be read back from the `titles` parameter, in
      order. */
  lemma {:induction false} TitlesRecoverable(updates: UpdateMap)
    requires |updates| > 0
    requires forall i :: 0 <= i < |updates| ==> '|' !in updates[i].0
    ensures Split(Join(Names(updates), "|"), '|') == Names(updates)
  {
    var titles := Names(updates);
    assert forall i :: 0 <= i < |titles| ==> '|' !in titles[i] by {
      forall i | 0 <= i < |titles| ensures '|' !in titles[i] {
        assert titles[i] == updates[i].0;
      }
    }
    assert "|" == ['|'];
    SplitJoin(titles, '|');
  }

  /** The query fails with `InvalidResponse` exactly when a parsed reply
      has no object at `query.pages`, and otherwise yields its values. */
  lemma {:induction false} FetchOutcome(env: AuthEnv, reply: Reply)
    requires reply.Reply? && reply.body.Parsed?
    ensures GetEditInfo(env, reply) == Err(InvalidResponse) <==>
      !(reply.body.content.Json? && reply.body.content.pages.PageObject?)
    ensures GetEditInfo(env, reply).Ok? ==> GetEditInfo(env, reply).value.1 == reply.body.content.pages.values
  {
    ReqJsonParsed(env.cookies, reply.setCookie, reply.body.content);
  }

  /** Titles `X` and `Y` go out as the single parameter `X|Y`. */
  lemma {:induction false} BatchedScenario(host: string, env: AuthEnv)
    ensures Param(FetchRequest(host, [("X", Str("x")), ("Y", Str("y"))], env).query, "titles") == Some("X|Y")
  {
    var updates := [("X", Str("x")), ("Y", Str("y"))];
    FetchIsBatched(host, updates, env);
    assert updates[1..] == [("Y", Str("y"))];
    assert Names(updates) == ["X", "Y"];
    assert ["X", "Y"][1..] == ["Y"];
    assert Join(["X", "Y"], "|") == "X" + "|" + "Y";
    assert "X" + "|" + "Y" == "X|Y";
  }

  // ------------------------------------------------------- page edits

  /** A page is skipped exactly when its title is not a key of the map or
      its text is falsy; otherwise the edit carries the page's own edit
      token, the fixed summary, and `assert=bot` or `assert=user`. */
  lemma {:induction false} PlanEditDecision(updates: UpdateMap, page: PageInfo, registeredBot: bool)
    ensures PlanEdit(updates, page, registeredBot).Skip? <==>
      !page.title.Str? || page.title.s !in Names(updates) || !Truthy(Get(updates, page.title.s).value)
    ensures PlanEdit(updates, page, registeredBot).Edit? ==>
      var form := PlanEdit(updates, page, registeredBot).form;
      && Param(form, "action") == Some("edit")
      && Param(form, "title") == Some(page.title.s)
      && Param(form, "text") == Some(JsString(Get(updates, page.title.s).value))
      && Param(form, "token") == Some(JsString(page.edittoken))
      && Param(form, "summary") == Some("Update latest chapter")
      && Param(form, "assert") == Some(if registeredBot then "bot" else "user")
      && Param(form, "format") == Some("json")
  {
    var plan := PlanEdit(updates, page, registeredBot);
    if plan.Edit? {
      var form := plan.form;
      ParamAt(form, 0, "action");
      ParamAt(form, 1, "title");
      ParamAt(form, 2, "text");
      ParamAt(form, 3, "summary");
      ParamAt(form, 4, "token");
      ParamAt(form, 5, "assert");
      ParamAt(form, 6, "format");
    }
  }

  /** With `PageA` mapped to new text, pages `PageA` and `PageB` give one
      edit, for `PageA`. */
  lemma {:induction false} SkipScenario(tokenA: Value, tokenB: Value, registeredBot: bool)
    ensures var updates := [("PageA", Str("new text"))];
      Planned(updates, [PageInfo(Str("PageA"), tokenA), PageInfo(Str("PageB"), tokenB)], registeredBot)
      == [EditParams("PageA", Str("new text"), tokenA, registeredBot)]
  {
    var updates := [("PageA", Str("new text"))];
    var pages := [PageInfo(Str("PageA"), tokenA), PageInfo(Str("PageB"), tokenB)];
    assert pages[1..] == [PageInfo(Str("PageB"), tokenB)];
    assert pages[1..][1..] == [];
    assert updates[1..] == [];
    assert Get(updates, "PageA") == Some(Str("new text"));
    assert Get(updates, "PageB") == None;
    assert PlanEdit(updates, pages[0], registeredBot) == Edit(EditParams("PageA", Str("new text"), tokenA, registeredBot));
    assert Planned(updates, pages[1..][1..], registeredBot) == [];
    assert Planned(updates, pages[1..], registeredBot) == [];
    assert PlanEdit(updates, pages[1], registeredBot) == Skip;
  }

  /** An edit reply `{"error":{"info":"permission denied"}}` fails the
      edit with that message. */
  lemma {:induction false} EditErrorScenario(env: AuthEnv)
    ensures CheckEdit(env, Reply(None, Parsed(Json(None, NoPages, Some(ErrorObject(Str("permission denied")))))))
            == Err(EditFailed("permission denied"))
  {
  }

  /** The edit fails exactly when the reply reports an error object. */
  lemma {:induction false} CheckEditOutcome(env: AuthEnv, reply: Reply)
    requires reply.Reply? && reply.body.Parsed?
    ensures CheckEdit(env, reply).Err? <==> reply.body.content.Json? && reply.body.content.error.Some?
  {
    ReqJsonParsed(env.cookies, reply.setCookie, reply.body.content);
  }

  // --------------------------------------------------------------- run

  /** Both login requests are login requests. */
  lemma {:induction false} LoginTraceIsLogins(host: string, creds: Credentials, replies: seq<Reply>)
    ensures forall i :: 0 <= i < |Login(host, creds, replies).trace| ==> IsLoginRequest(Login(host, creds, replies).trace[i])
  {
    var t := Login(host, creds, replies).trace;
    assert IsLoginRequest(t[0]);
    if |t| == 2 {
      assert IsLoginRequest(t[1]);
    }
  }

  /** A run is the login requests, then (only after a successful login)
      the one edit-token query, then edit requests only. A failed login
      ends the run at once, and a failed token query right after it. */
  lemma {:induction false} RunShape(host: string, updates: UpdateMap, creds: Credentials, replies: seq<Reply>)
    ensures var run := ExecUpdate(host, updates, creds, replies);
      var login := Login(host, creds, replies);
      && login.trace <= run.trace
      && (forall i :: 0 <= i < |login.trace| ==> IsLoginRequest(run.trace[i]))
      && (login.result.Err? ==> run.trace == login.trace && run.outcome == Err(login.result.error))
      && (login.result.Ok? ==>
            |run.trace| > |login.trace| && run.trace[|login.trace|] == FetchRequest(host, updates, login.result.value))
      && (login.result.Ok? && GetEditInfo(login.result.value, Next(login.rest)).Err? ==>
            run == Run(login.trace + [FetchRequest(host, updates, login.result.value)],
                       Err(GetEditInfo(login.result.value, Next(login.rest)).error)))
      && (forall i :: |login.trace| < i < |run.trace| ==> IsEditRequest(run.trace[i]))
  {
    LoginTraceIsLogins(host, creds, replies);
    var login := Login(host, creds, replies);
    if login.result.Ok? {
      RunAfterLogin(host, updates, creds, replies);
      if GetEditInfo(login.result.value, Next(login.rest)).Err? {
        FailedFetchStopsRun(host, updates, creds, replies);
      }
    }
  }

  /** After a successful login the run appends the token query and the
      edits to the login requests. */
  lemma {:induction false} RunAfterLogin(host: string, updates: UpdateMap, creds: Credentials, replies: seq<Reply>)
    requires Login(host, creds, replies).result.Ok?
    ensures var run := ExecUpdate(host, updates, creds, replies);
      var login := Login(host, creds, replies);
      && (exists edits :: run.trace == login.trace + [FetchRequest(host, updates, login.result.value)] + edits
                       && forall i :: 0 <= i < |edits| ==> IsEditRequest(edits[i]))
  {
    var login := Login(host, creds, replies);
    var env := login.result.value;
    var got := GetEditInfo(env, Next(login.rest));
    if got.Ok? {
      var edits := UpdatePages(host, updates, got.value.1, got.value.0, creds.registeredBot, Later(login.rest));
      assert ExecUpdate(host, updates, creds, replies).trace == login.trace + [FetchRequest(host, updates, env)] + edits.trace;
    } else {
      assert ExecUpdate(host, updates, creds, replies).trace == login.trace + [FetchRequest(host, updates, env)] + [];
    }
  }

  /** The phase of a request: logging in, fetching tokens, editing. */
  function PhaseOf(r: Request): nat
  {
    if IsLoginRequest(r) then 0 else if IsFetchRequest(r) then 1 else 2
  }

  /** Logging in strictly precedes the token query, which precedes every
      edit; there is at most one token query, at most two login requests,
      and every edit comes after the token query. */
  lemma {:induction false} RunPhasesOrdered(host: string, updates: UpdateMap, creds: Credentials, replies: seq<Reply>)
    ensures var t := ExecUpdate(host, updates, creds, replies).trace;
      && (forall i, j :: 0 <= i < j < |t| ==> PhaseOf(t[i]) <= PhaseOf(t[j]))
      && (forall i, j :: 0 <= i < j < |t| && IsFetchRequest(t[i]) ==> !IsFetchRequest(t[j]))
      && (forall i :: 2 <= i < |t| ==> !IsLoginRequest(t[i]))
      && (forall j :: 0 <= j < |t| && IsEditRequest(t[j]) ==> exists i :: 0 <= i < j && IsFetchRequest(t[i]))
  {
    RunShape(host, updates, creds, replies);
    PhasesOfShape(ExecUpdate(host, updates, creds, replies).trace, |Login(host, creds, replies).trace|);
  }

  /** The order of phases in any trace made of one or two logins, then
      possibly a token query, then edits. */
  lemma {:induction false} PhasesOfShape(t: seq<Request>, n: nat)
    requires 1 <= n <= 2 && n <= |t|
    requires forall i :: 0 <= i < n ==> IsLoginRequest(t[i])
    requires n < |t| ==> IsFetchRequest(t[n])
    requires forall i :: n < i < |t| ==> IsEditRequest(t[i])
    ensures forall i, j :: 0 <= i < j < |t| ==> PhaseOf(t[i]) <= PhaseOf(t[j])
    ensures forall i, j :: 0 <= i < j < |t| && IsFetchRequest(t[i]) ==> !IsFetchRequest(t[j])
    ensures forall i :: 2 <= i < |t| ==> !IsLoginRequest(t[i])
    ensures forall j :: 0 <= j < |t| && IsEditRequest(t[j]) ==> exists i :: 0 <= i < j && IsFetchRequest(t[i])
  {
    forall i | 0 <= i < |t|
      ensures PhaseOf(t[i]) == (if i < n then 0 else if i == n then 1 else 2)
      ensures IsFetchRequest(t[i]) <==> i == n
      ensures IsEditRequest(t[i]) <==> n < i
      ensures IsLoginRequest(t[i]) <==> i < n
    {
      var r := t[i];
      if i < n {
        assert IsLoginRequest(r);
      } else if i == n {
        assert IsFetchRequest(r);
      } else {
        assert IsEditRequest(r);
      }
    }
  }

  /** A failed login ends the run: no edit-token query and no edit. */
  lemma {:induction false} FailedLoginStopsRun(host: string, updates: UpdateMap, creds: Credentials, replies: seq<Reply>)
    requires Login(host, creds, replies).result.Err?
    ensures var run := ExecUpdate(host, updates, creds, replies);
      && run.outcome == Err(Login(host, creds, replies).result.error)
      && |run.trace| <= 2
      && forall i :: 0 <= i < |run.trace| ==> IsLoginRequest(run.trace[i]) && !IsFetchRequest(run.trace[i]) && !IsEditRequest(run.trace[i])
  {
    RunShape(host, updates, creds, replies);
  }

  /** A first reply with result `Failed` yields a run of that one login
      request. */
  lemma {:induction false} FailedLoginScenario(host: string, updates: UpdateMap, creds: Credentials, rest: seq<Reply>)
    ensures var first := Reply(None, Parsed(Json(Some(LoginObject(Str("Failed"), Str("T"), Undefined, Undefined)), NoPages, None)));
      ExecUpdate(host, updates, creds, [first] + rest) == Run([LoginRequest(host, creds)], Err(LoginFailed))
  {
    var first := Reply(None, Parsed(Json(Some(LoginObject(Str("Failed"), Str("T"), Undefined, Undefined)), NoPages, None)));
    assert Next([first] + rest) == first;
  }

  lemma {:induction false} FormsAppend(a: seq<Request>, b: seq<Request>)
    ensures Forms(a + b) == Forms(a) + Forms(b)
  {
    if |a| == 0 {
      assert a + b == b;
    } else {
      assert (a + b)[0] == a[0];
      assert (a + b)[1..] == a[1..] + b;
      FormsAppend(a[1..], b);
    }
  }

  lemma {:induction false} FormsOne(r: Request)
    ensures Forms([r]) == if r.form.Some? then [r.form.value] else []
  {
    assert [r][1..] == [];
  }

  /** The edits of the page loop are the planned edits of the pages in
      order: all of them when every edit succeeds, a prefix otherwise. */
  lemma {:induction false} UpdatePagesFollowPlan(host: string, updates: UpdateMap, pages: seq<PageInfo>, env: AuthEnv,
                                                 registeredBot: bool, replies: seq<Reply>)
    ensures var s := UpdatePages(host, updates, pages, env, registeredBot, replies);
      && Forms(s.trace) <= Planned(updates, pages, registeredBot)
      && (s.result.Ok? ==> Forms(s.trace) == Planned(updates, pages, registeredBot))
    decreases |pages|
  {
    if |pages| > 0 {
      var later := Planned(updates, pages[1..], registeredBot);
      match PlanEdit(updates, pages[0], registeredBot)
      case Skip =>
        UpdatePagesFollowPlan(host, updates, pages[1..], env, registeredBot, replies);
      case Edit(form) =>
        var req := EditRequest(host, env, form);
        FormsOne(req);
        match CheckEdit(env, Next(replies))
        case Err(_) =>
          assert [form] <= [form] + later;
        case Ok(env') =>
          var rest := UpdatePages(host, updates, pages[1..], env', registeredBot, Later(replies));
          UpdatePagesFollowPlan(host, updates, pages[1..], env', registeredBot, Later(replies));
          FormsAppend([req], rest.trace);
          PrefixCons(form, Forms(rest.trace), later);
    }
  }

  lemma {:induction false} PrefixCons<T>(x: T, a: seq<T>, b: seq<T>)
    requires a <= b
    ensures [x] + a <= [x] + b
  {
    assert forall i :: 0 <= i < |a| ==> ([x] + a)[i + 1] == a[i];
  }

  /** Once the token query has returned its pages, the edits sent are the
      planned edits of those pages in the order received: all of them when
      the run succeeds, a prefix when an edit fails. */
  lemma {:induction false} EditsFollowPageOrder(host: string, updates: UpdateMap, creds: Credentials, replies: seq<Reply>)
    requires Login(host, creds, replies).result.Ok?
    requires var login := Login(host, creds, replies);
      GetEditInfo(login.result.value, Next(login.rest)).Ok?
    ensures var login := Login(host, creds, replies);
      var pages := GetEditInfo(login.result.value, Next(login.rest)).value.1;
      var run := ExecUpdate(host, updates, creds, replies);
      && Forms(run.trace) <= Planned(updates, pages, creds.registeredBot)
      && (run.outcome.Ok? ==> Forms(run.trace) == Planned(updates, pages, creds.registeredBot))
  {
    var login := Login(host, creds, replies);
    var env := login.result.value;
    var fetched := GetEditInfo(env, Next(login.rest)).value;
    var edits := UpdatePages(host, updates, fetched.1, fetched.0, creds.registeredBot, Later(login.rest));
    UpdatePagesFollowPlan(host, updates, fetched.1, fetched.0, creds.registeredBot, Later(login.rest));
    var head := login.trace + [FetchRequest(host, updates, env)];
    FormsAppend(head, edits.trace);
    FormsAppend(login.trace, [FetchRequest(host, updates, env)]);
    LoginSendsNoForm(host, creds, replies);
    FormsOne(FetchRequest(host, updates, env));
  }

  /** Login requests carry their parameters in the query string. */
  lemma {:induction false} LoginSendsNoForm(host: string, creds: Credentials, replies: seq<Reply>)
    ensures Forms(Login(host, creds, replies).trace) == []
  {
    var t := Login(host, creds, replies).trace;
    FormsOne(t[0]);
    if |t| == 2 {
      FormsAppend([t[0]], [t[1]]);
      FormsOne(t[1]);
      assert t == [t[0]] + [t[1]];
    } else {
      assert t == [t[0]];
    }
  }

  // --------------------------------------------------------- findings

  /** As written, no reply ever reaches the caller of `reqJSON`: an
      answered request throws a `ReferenceError`, one whose socket fails a
      transport error. With the import in place, a parsed reply is
      delivered. */
  lemma {:induction false} MissingImportLosesEveryReply(jar: Jar, reply: Reply)
    ensures ReqJsonAsWritten(jar, reply).Err?
    ensures reply.Reply? ==> ReqJsonAsWritten(jar, reply) == Err(ReferenceError("readCookieHeader"))
    ensures reply.Reply? && reply.body.Parsed? ==> ReqJson(jar, reply).Ok?
  {
  }

  lemma {:induction false} WikiaCookiesAreTrimmed()
    ensures forall w :: w in WikiaCookies ==> Trimmed(w)
  {
  }

  lemma {:induction false} ReadOneLine(line: string, jar: Jar, wl: Option<seq<string>>)
    ensures ReadLines([line], jar, wl) == ReadLine(line, jar, wl)
  {
    assert [line][1..] == [];
  }

  /** With the import in place, a white-listed Set-Cookie line lands in
      the session jar under its name. */
  lemma {:induction false} ReqJsonStoresSessionCookie(jar: Jar, name: string, value: string, content: Content)
    requires name in WikiaCookies
    requires ';' !in value && Trimmed(value)
    ensures var r := ReqJson(jar, Reply(Some([name + "=" + value]), Parsed(content)));
      r.Ok? && Get(r.value.0, name) == Some(value)
  {
    var line := name + "=" + value;
    assert Accepted(line, Some(WikiaCookies)) by {
      assert name + "=" <= line;
    }
    WikiaCookiesArePlain();
    WikiaCookiesAreTrimmed();
    CookieProofs.ParseCookieLine(name, value);
    ReadOneLine(line, jar, Some(WikiaCookies));
    ReqJsonParsed(jar, Some([line]), content);
  }

  /** As written, the edit callback looks for `error` on the response
      wrapper, so a reported edit error passes as success; checking the
      content reports it. */
  lemma {:induction false} WrapperHidesEditError(env: AuthEnv, cookies: Option<seq<string>>, info: Value)
    ensures var reply := Reply(cookies, Parsed(Json(None, NoPages, Some(ErrorObject(info)))));
      && CheckEditAsWritten(env, reply).Ok?
      && CheckEdit(env, reply) == Err(EditFailed(EditFailureMessage(ErrorObject(info))))
  {
  }

  /** As written, a cookie set by the edit-token reply never reaches the
      session jar; passing the jar keeps it. */
  lemma {:induction false} FetchDropsSessionCookie(env: AuthEnv, pages: seq<PageInfo>)
    requires env.cookies == []
    ensures var reply := Reply(Some(["wikicitiesToken=abc"]), Parsed(Json(None, PageObject(pages), None)));
      && GetEditInfoAsWritten(env, reply) == Ok((env, pages))
      && GetEditInfo(env, reply) == Ok((env.(cookies := [("wikicitiesToken", "abc")]), pages))
  {
    var header := Some(["wikicitiesToken=abc"]);
    FetchAsWrittenKeepsEnv(env, header, pages);
    FetchReadsCookies(env, header, pages);
    SessionTokenRead();
  }

  lemma {:induction false} FetchAsWrittenKeepsEnv(env: AuthEnv, setCookie: Option<seq<string>>, pages: seq<PageInfo>)
    ensures GetEditInfoAsWritten(env, Reply(setCookie, Parsed(Json(None, PageObject(pages), None)))) == Ok((env, pages))
  {
    ReqJsonParsed([], setCookie, Json(None, PageObject(pages), None));
  }

  lemma {:induction false} FetchReadsCookies(env: AuthEnv, setCookie: Option<seq<string>>, pages: seq<PageInfo>)
    ensures GetEditInfo(env, Reply(setCookie, Parsed(Json(None, PageObject(pages), None)))) ==
      Ok((env.(cookies := JarAfterRead(setCookie, env.cookies, Some(WikiaCookies))), pages))
  {
    ReqJsonParsed(env.cookies, setCookie, Json(None, PageObject(pages), None));
  }

  lemma {:induction false} SessionTokenRead()
    ensures JarAfterRead(Some(["wikicitiesToken=abc"]), [], Some(WikiaCookies)) == [("wikicitiesToken", "abc")]
  {
    var line := "wikicitiesToken=abc";
    assert "wikicitiesToken" + "=" + "abc" == line;
    assert Accepted(line, Some(WikiaCookies)) by {
      assert "wikicitiesToken" in WikiaCookies && "wikicitiesToken" + "=" <= line;
    }
    CookieProofs.ParseCookieLine("wikicitiesToken", "abc");
    ReadOneLine(line, [], Some(WikiaCookies));
  }

  // ------------------------------------------------- session cookies

  /** With the import in place, every name's value in the jar after a
      parsed reply is the one the reply's last accepted line gives it, or
      its old value when no accepted line names it. */
  lemma {:induction false} ReqJsonCookies(jar: Jar, lines: seq<string>, content: Content)
    ensures var r := ReqJson(jar, Reply(Some(lines), Parsed(content)));
      && r.Ok? && r.value.1 == content
      && forall k :: Get(r.value.0, k) ==
           (if LastWrite(lines, Some(WikiaCookies), k).Some? then LastWrite(lines, Some(WikiaCookies), k) else Get(jar, k))
  {
    ReqJsonParsed(jar, Some(lines), content);
    forall k
      ensures Get(ReadLines(lines, jar, Some(WikiaCookies)), k) ==
        (if LastWrite(lines, Some(WikiaCookies), k).Some? then LastWrite(lines, Some(WikiaCookies), k) else Get(jar, k))
    {
      CookieProofs.ReadLinesGet(lines, jar, Some(WikiaCookies), k);
    }
  }

  /** With the session jar passed, the token query's Set-Cookie lines
      update the session's cookies as `readCookieHeader` promises, and the
      rest of the session is untouched. */
  lemma {:induction false} FetchSessionCookies(env: AuthEnv, lines: seq<string>, content: Content)
    requires content.Json? && content.pages.PageObject?
    ensures var r := GetEditInfo(env, Reply(Some(lines), Parsed(content)));
      && r.Ok? && r.value.1 == content.pages.values
      && r.value.0.token == env.token && r.value.0.lgtoken == env.lgtoken && r.value.0.sessionid == env.sessionid
      && forall k :: Get(r.value.0.cookies, k) ==
           (if LastWrite(lines, Some(WikiaCookies), k).Some? then LastWrite(lines, Some(WikiaCookies), k) else Get(env.cookies, k))
  {
    ReqJsonCookies(env.cookies, lines, content);
  }

  /** An edit that does not fail writes its reply's Set-Cookie lines into
      the session jar, which `updatePage` passes to `reqJSON`, as
      `readCookieHeader` promises; a reply without Set-Cookie lines leaves
      the session as it was. The rest of the session is untouched. */
  lemma {:induction false} EditSessionCookies(env: AuthEnv, lines: seq<string>, content: Content)
    requires !(content.Json? && content.error.Some?)
    ensures var r := CheckEdit(env, Reply(Some(lines), Parsed(content)));
      && r.Ok?
      && r.value.token == env.token && r.value.lgtoken == env.lgtoken && r.value.sessionid == env.sessionid
      && forall k :: Get(r.value.cookies, k) ==
           (if LastWrite(lines, Some(WikiaCookies), k).Some? then LastWrite(lines, Some(WikiaCookies), k) else Get(env.cookies, k))
    ensures CheckEdit(env, Reply(None, Parsed(content))) == Ok(env)
  {
    ReqJsonCookies(env.cookies, lines, content);
  }

  // ------------------------------------------------ stopping on failure

  /** The replies left once the first `n` are used. */
  function Drop(replies: seq<Reply>, n: nat): seq<Reply>
  {
    if n <= |replies| then replies[n..] else []
  }

  /** An edit reply that fails the edit: none arrives, the body does not
      parse, or the body reports an error object. */
  predicate EditFails(reply: Reply)
  {
    reply.NoReply? || reply.body.Unparsable? || (reply.body.content.Json? && reply.body.content.error.Some?)
  }

  /** The forms sent for a list of planned edits when each edit takes the
      next reply: every planned form up to and including the first one
      whose reply fails it. */
  function SentUntilFailure(forms: seq<Params>, replies: seq<Reply>): seq<Params>
  {
    if |forms| == 0 then []
    else if EditFails(Next(replies)) then [forms[0]]
    else [forms[0]] + SentUntilFailure(forms[1..], Later(replies))
  }

  /** Some planned edit gets a reply that fails it. */
  predicate FailsWithin(forms: seq<Params>, replies: seq<Reply>)
  {
    |forms| > 0 && (EditFails(Next(replies)) || FailsWithin(forms[1..], Later(replies)))
  }

  /** The edit requests a list of planned edits puts on the wire when each
      edit takes the next reply: the first carries the session it starts
      from, each later one the session the reply to the edit before it
      left, and the first reply that fails an edit ends the list. */
  function EditsUntilFailure(host: string, env: AuthEnv, forms: seq<Params>, replies: seq<Reply>): seq<Request>
    decreases |forms|
  {
    if |forms| == 0 then []
    else
      var req := EditRequest(host, env, forms[0]);
      match CheckEdit(env, Next(replies))
      case Err(_) => [req]
      case Ok(env') => [req] + EditsUntilFailure(host, env', forms[1..], Later(replies))
  }

  /** A request carries a Cookie header built from some jar the session's
      jar has grown into. */
  ghost predicate CarriesSession(r: Request, env: AuthEnv)
  {
    exists j :: Grows(env.cookies, j) && r.cookie == Some(BuildCookieHeader(j))
  }

  lemma {:induction false} GrowsTrans(a: Jar, b: Jar, c: Jar)
    requires Grows(a, b) && Grows(b, c)
    ensures Grows(a, c)
  {
  }

  /** Every edit is a POST to the host with an empty query string and the
      session's Cookie header: the first one the session's own jar, every
      later one a jar grown from it by the replies in between. */
  lemma {:induction false} EditsCarrySession(host: string, env: AuthEnv, forms: seq<Params>, replies: seq<Reply>)
    ensures var t := EditsUntilFailure(host, env, forms, replies);
      && (|forms| > 0 ==> |t| > 0 && t[0].cookie == Some(BuildCookieHeader(env.cookies)))
      && SessionEdits(t, host, env)
    decreases |forms|
  {
    if |forms| > 0 {
      var req := EditRequest(host, env, forms[0]);
      assert Grows(env.cookies, env.cookies);
      assert CarriesSession(req, env);
      match CheckEdit(env, Next(replies))
      case Err(_) =>
        SessionEditsCons(req, [], host, env, env);
        assert [req] + [] == [req];
      case Ok(env') =>
        var rest := EditsUntilFailure(host, env', forms[1..], Later(replies));
        EditsCarrySession(host, env', forms[1..], Later(replies));
        SessionEditsCons(req, rest, host, env, env');
    }
  }

  /** Every request of `t` is a POST to `host` with an empty query string
      carrying the session `env`. */
  ghost predicate SessionEdits(t: seq<Request>, host: string, env: AuthEnv)
  {
    forall k :: 0 <= k < |t| ==> t[k].verb == HttpPost && t[k].host == host && t[k].query == [] && CarriesSession(t[k], env)
  }

  lemma {:induction false} SessionEditsCons(req: Request, rest: seq<Request>, host: string, env: AuthEnv, env': AuthEnv)
    requires req.verb == HttpPost && req.host == host && req.query == [] && CarriesSession(req, env)
    requires Grows(env.cookies, env'.cookies) && SessionEdits(rest, host, env')
    ensures SessionEdits([req] + rest, host, env)
  {
    SessionEditsGrow(rest, host, env, env');
    var t := [req] + rest;
    forall k | 1 <= k < |t|
      ensures t[k] == rest[k - 1]
    {
    }
  }

  /** A request carrying a session also carries every session it grew
      from. */
  lemma {:induction false} SessionEditsGrow(t: seq<Request>, host: string, env: AuthEnv, env': AuthEnv)
    requires Grows(env.cookies, env'.cookies) && SessionEdits(t, host, env')
    ensures SessionEdits(t, host, env)
  {
    forall k | 0 <= k < |t|
      ensures CarriesSession(t[k], env)
    {
      assert CarriesSession(t[k], env');
      var j :| Grows(env'.cookies, j) && t[k].cookie == Some(BuildCookieHeader(j));
      GrowsTrans(env.cookies, env'.cookies, j);
    }
  }

  /** Whether an edit fails depends on its reply alone. */
  lemma {:induction false} CheckEditFails(env: AuthEnv, reply: Reply)
    ensures CheckEdit(env, reply).Err? <==> EditFails(reply)
  {
    if reply.Reply? && reply.body.Parsed? {
      CheckEditOutcome(env, reply);
    }
  }

  lemma {:induction false} DropLater(replies: seq<Reply>, n: nat)
    ensures Later(Drop(replies, n)) == Drop(replies, n + 1)
    ensures Drop(replies, 0) == replies
  {
  }

  /** A login uses one reply per request it sends. */
  lemma {:induction false} LoginConsumes(host: string, creds: Credentials, replies: seq<Reply>)
    ensures Login(host, creds, replies).rest == Drop(replies, |Login(host, creds, replies).trace|)
  {
    DropLater(replies, 0);
    DropLater(replies, 1);
    LoginRest(host, creds, replies);
  }

  lemma {:induction false} LoginRest(host: string, creds: Credentials, replies: seq<Reply>)
    ensures var s := Login(host, creds, replies);
      s.rest == if |s.trace| == 1 then Later(replies) else Later(Later(replies))
  {
  }

  /** The page loop sends the planned edits in order, each taking the next
      reply, up to and including the first edit whose reply fails it, and
      nothing after that; it fails exactly when some planned edit's reply
      fails it. */
  lemma {:induction false} PageLoopStopsAtFailure(host: string, updates: UpdateMap, pages: seq<PageInfo>, env: AuthEnv,
                                                  registeredBot: bool, replies: seq<Reply>)
    ensures var s := UpdatePages(host, updates, pages, env, registeredBot, replies);
      var plan := Planned(updates, pages, registeredBot);
      && s.trace == EditsUntilFailure(host, env, plan, replies)
      && Forms(s.trace) == SentUntilFailure(plan, replies)
      && (s.result.Err? <==> FailsWithin(plan, replies))
    decreases |pages|
  {
    if |pages| > 0 {
      var later := Planned(updates, pages[1..], registeredBot);
      match PlanEdit(updates, pages[0], registeredBot)
      case Skip =>
        PageLoopStopsAtFailure(host, updates, pages[1..], env, registeredBot, replies);
      case Edit(form) =>
        var req := EditRequest(host, env, form);
        var plan := [form] + later;
        assert plan[0] == form && plan[1..] == later;
        FormsOne(req);
        CheckEditFails(env, Next(replies));
        match CheckEdit(env, Next(replies))
        case Err(_) =>
        case Ok(env') =>
          var rest := UpdatePages(host, updates, pages[1..], env', registeredBot, Later(replies));
          PageLoopStopsAtFailure(host, updates, pages[1..], env', registeredBot, Later(replies));
          FormsAppend([req], rest.trace);
    }
  }

  /** A failed token query ends the run: the login requests and the query
      are all that is sent, and the run fails with the query's error. */
  lemma {:induction false} FailedFetchStopsRun(host: string, updates: UpdateMap, creds: Credentials, replies: seq<Reply>)
    requires Login(host, creds, replies).result.Ok?
    requires var login := Login(host, creds, replies);
      GetEditInfo(login.result.value, Next(login.rest)).Err?
    ensures var login := Login(host, creds, replies);
      ExecUpdate(host, updates, creds, replies) ==
        Run(login.trace + [FetchRequest(host, updates, login.result.value)],
            Err(GetEditInfo(login.result.value, Next(login.rest)).error))
  {
  }

  /** Once the token query succeeds, request `i` of the run takes reply
      `i`: the edits sent are the planned ones up to and including the
      first whose reply fails it, and the run fails exactly when one
      does. */
  lemma {:induction false} RunStopsAtFailedEdit(host: string, updates: UpdateMap, creds: Credentials, replies: seq<Reply>)
    requires Login(host, creds, replies).result.Ok?
    requires var login := Login(host, creds, replies);
      GetEditInfo(login.result.value, Next(login.rest)).Ok?
    ensures var login := Login(host, creds, replies);
      var pages := GetEditInfo(login.result.value, Next(login.rest)).value.1;
      var run := ExecUpdate(host, updates, creds, replies);
      var plan := Planned(updates, pages, creds.registeredBot);
      var left := Drop(replies, |login.trace| + 1);
      && run.trace == login.trace + [FetchRequest(host, updates, login.result.value)] +
                      EditsUntilFailure(host, GetEditInfo(login.result.value, Next(login.rest)).value.0, plan, left)
      && Forms(run.trace) == SentUntilFailure(plan, left)
      && (run.outcome.Err? <==> FailsWithin(plan, left))
  {
    var login := Login(host, creds, replies);
    var env := login.result.value;
    var fetched := GetEditInfo(env, Next(login.rest)).value;
    LoginConsumes(host, creds, replies);
    DropLater(replies, |login.trace|);
    var left := Later(login.rest);
    var edits := UpdatePages(host, updates, fetched.1, fetched.0, creds.registeredBot, left);
    PageLoopStopsAtFailure(host, updates, fetched.1, fetched.0, creds.registeredBot, left);
    var head := login.trace + [FetchRequest(host, updates, env)];
    assert ExecUpdate(host, updates, creds, replies) == Run(head + edits.trace, edits.result);
    FormsAppend(head, edits.trace);
    FormsAppend(login.trace, [FetchRequest(host, updates, env)]);
    LoginSendsNoForm(host, creds, replies);
    FormsOne(FetchRequest(host, updates, env));
  }

  /** Every edit of a run reuses the login session: its Cookie header is
      built from a jar the login jar has grown into through the token
      query's and the earlier edits' replies. */
  lemma {:induction false} RunEditsCarrySession(host: string, updates: UpdateMap, creds: Credentials, replies: seq<Reply>)
    requires Login(host, creds, replies).result.Ok?
    requires var login := Login(host, creds, replies);
      GetEditInfo(login.result.value, Next(login.rest)).Ok?
    ensures var login := Login(host, creds, replies);
      var run := ExecUpdate(host, updates, creds, replies);
      |run.trace| > |login.trace| && SessionEdits(run.trace[|login.trace| + 1..], host, login.result.value)
  {
    var login := Login(host, creds, replies);
    var env := login.result.value;
    var fetched := GetEditInfo(env, Next(login.rest)).value;
    var plan := Planned(updates, fetched.1, creds.registeredBot);
    var left := Drop(replies, |login.trace| + 1);
    var edits := EditsUntilFailure(host, fetched.0, plan, left);
    RunStopsAtFailedEdit(host, updates, creds, replies);
    EditsCarrySession(host, fetched.0, plan, left);
    SessionEditsGrow(edits, host, env, fetched.0);
    var head := login.trace + [FetchRequest(host, updates, env)];
    assert (head + edits)[|head|..] == edits;
  }

  // --------------------------------------------------- request records

  /** The first login request: an `action=login` POST with the user's
      name and password in the query string, no `lgtoken`, and no Cookie
      header. */
  lemma {:induction false} LoginRequestShape(host: string, creds: Credentials)
    ensures var r := LoginRequest(host, creds);
      && IsLoginRequest(r) && r.cookie.None?
      && Param(r.query, "lgname") == Some(creds.username)
      && Param(r.query, "lgpassword") == Some(creds.password)
      && Param(r.query, "format") == Some("json")
      && Param(r.query, "lgtoken").None?
  {
    var q := LoginParams(creds);
    ParamAt(q, 1, "lgname");
    ParamAt(q, 2, "lgpassword");
    ParamAt(q, 3, "format");
    ParamAbsent(q, "lgtoken");
  }

  /** The confirm request: an `action=login` POST repeating name and
      password, adding `lgtoken` as the string form of the session token,
      with the session's Cookie header. */
  lemma {:induction false} ConfirmRequestShape(host: string, creds: Credentials, env: AuthEnv)
    ensures var r := ConfirmRequest(host, creds, env);
      && IsLoginRequest(r) && r.cookie == Some(BuildCookieHeader(env.cookies))
      && Param(r.query, "lgname") == Some(creds.username)
      && Param(r.query, "lgpassword") == Some(creds.password)
      && Param(r.query, "lgtoken") == Some(JsString(env.token))
      && Param(r.query, "format") == Some("json")
  {
    var q := ConfirmParams(creds, env.token);
    ParamAt(q, 1, "lgname");
    ParamAt(q, 2, "lgpassword");
    ParamAt(q, 3, "lgtoken");
    ParamAt(q, 4, "format");
  }

  /** An edit request: a POST with an empty query string, the form as its
      body and the session's Cookie header; it counts as an edit exactly
      when the form says `action=edit`. */
  lemma {:induction false} EditRequestShape(host: string, env: AuthEnv, form: Params)
    ensures var r := EditRequest(host, env, form);
      && r.verb == HttpPost && r.query == [] && r.form == Some(form)
      && r.cookie == Some(BuildCookieHeader(env.cookies))
      && (IsEditRequest(r) <==> Param(form, "action") == Some("edit"))
      && !IsLoginRequest(r) && !IsFetchRequest(r)
  {
  }
}

=== FILE: wrappers.dfy ===
/** Optional values and success-or-error results used throughout the model. */
module Wrappers {

  /** A value that may be absent (JavaScript's `undefined` slot). */
  datatype Option<+T> = None | Some(value: T)

  /** The outcome of a step that can fail with an error of type `E`. */
  datatype Result<+T, +E> = Ok(value: T) | Err(error: E)
}
